=== FILE: README.md ===
# Imsak schedule: a Dafny model

This project models the schedule logic of a Ramadan companion web application in Dafny. The application shows the day's Imsak, Fajr and Maghrib (Iftar) times and counts down to the next of them. The model covers four parts:

- **The prayer-calendar endpoint** (`app/api/prayer-calendar/route.ts`).
  - It validates the query and maps the calculation method to the provider's numeric code.
  - It derives Imsak from a `HH:MM` Fajr string: Fajr minus an offset, modulo one day.
  - It rewrites Aladhan's `DD-MM-YYYY` dates to `YYYY-MM-DD` and turns each provider's entries into `PrayerDay`s.
  - It falls back from the MuslimSalat provider to the Aladhan provider and answers with 200, 400 or 502.
- **The time helpers** (`lib/time.ts`): placing a `HH:MM` clock reading on a day, exact minute subtraction, the countdown split into hours, minutes and seconds, and the hour-to-phase classification with its background class.
- **The home page's schedule logic** (`app/page.tsx`): today's date string, today's index and the shown day's index in the schedule, the Ramadan day number, the shown day's instants, and `resolveNextEvent`, the first-match rule that picks what the countdown aims at.
- **Preferences** (`lib/preferences.ts`): the defaults, the schema as a predicate, and loading and saving through local storage. Every failure falls back to the defaults.

How the model represents the source:

- **Instants** are integer milliseconds of local wall-clock time. The local day of an instant is its Euclidean quotient by 86 400 000.
- **Host date parsing.** How the runtime reads `new Date(date + "T00:00:00")` is a parameter, `localMidnight`.
- **The current time.** Every `new Date()` is an explicit parameter: `now` and `wallNow` on the page, and the month and year in `ServerEnv` on the server.
- **Upstream calls** are abstract outcomes (`Upstream`): an HTTP error, a schema mismatch, a thrown exception, or a body that passed the schema.
- **Requests.** The handler returns the requests it sent alongside its response, so the model can state which providers it asked.

The modules are:

| module | file | role |
|---|---|---|
| `Options` | `options.dfy` | the optional value standing for `null` / `undefined` |
| `Text` | `text.dfy` | digits, `Number()` on digit strings, `padStart(2, "0")`, `split` and `join` |
| `Clock` | `clock.dfy` | the `HH:MM` reading and formatting shared by the route and the time helpers |
| `Types` | `types.dfy` | `lib/types.ts`: methods, themes, `PrayerDay`, `TodayTimes`, `NextEvent` |
| `Time` | `time.dfy` | `lib/time.ts` |
| `PrayerCalendar` | `prayer_calendar.dfy` | `app/api/prayer-calendar/route.ts` |
| `HomePage` | `home_page.dfy` | `app/page.tsx` |
| `Preferences` | `preferences.dfy` | `lib/preferences.ts` |

## Model

| member | source | states |
|---|---|---|
| `Types.ParseMethod` | app/api/prayer-calendar/route.ts:14-16 | a method name is accepted exactly when it is one of the seven names, and it is read back as the method of that name |
| `Types.ParseMethodName` | lib/types.ts:1-8 | every method's name is accepted and reads back as that same method |
| `Types.ParseTheme` | lib/preferences.ts:21 | a theme name is accepted exactly when it is `dark`, `light` or `system`, and it is read back as the theme of that name |
| `Types.ParseThemeName` | lib/types.ts:10 | every theme's name is accepted and reads back as that same theme |
| `Text.ParseNatToString` | lib/time.ts:55-57 | the decimal text of a number reads back as that number |
| `Text.ParsePad2` | lib/time.ts:55-57 | a number padded to two digits is all digits, at least two characters long (exactly two below 100), and reads back as the number |
| `Text.JoinSplit` | app/api/prayer-calendar/route.ts:126 | joining the pieces of a split with the separator rebuilds the original text |
| `Text.SplitJoin` | app/api/prayer-calendar/route.ts:126 | splitting a join of separator-free pieces gives back exactly those pieces |
| `Text.SplitPrefix` | app/api/prayer-calendar/route.ts:80 | text before the first separator is the first piece of the split, whatever follows |
| `Clock.ParseClockShape` | app/api/prayer-calendar/route.ts:79-85 | for text without a space: no `:` means no reading; `a:b` and `a:b:rest` read alike; `a:b` reads exactly when `a` and `b` are non-empty digit strings |
| `Clock.ParseClockValue` | app/api/prayer-calendar/route.ts:80-82 | for non-empty digit strings `a` and `b`, both `a:b` and `a:b:rest` read as the decimal values of `a` and `b` |
| `Clock.ParseFormatClock` | app/api/prayer-calendar/route.ts:91-95 | a formatted `HH:MM` parses back to the same hours and minutes, and is five characters when both are below 100 |
| `Clock.ParseClockIgnoresAnnotation` | app/api/prayer-calendar/route.ts:80-83 | an annotation after the first space does not change the clock reading |
| `Time.MakeDateFromTimeString` | lib/time.ts:3-14 | when the time does not parse, the result is the base instant itself |
| `Time.MakeDateCarry` | lib/time.ts:3-14 | `setHours` carries: with `x` the reading in minutes, the instant lies `x / 1440` days after the base's day at hour `(x mod 1440) / 60` and minute `x mod 60`, with zero seconds and milliseconds |
| `Time.MakeDateFields` | lib/time.ts:3-14 | an in-range `HH:MM` gives an instant on the base's local day with exactly that hour and minute and zero seconds and milliseconds |
| `Time.SubtractMinutes` | lib/time.ts:16-18 | the result plus the minutes in milliseconds is the input, and a positive count moves strictly earlier |
| `Time.SubtractMinutesKeepsSeconds` | lib/time.ts:16-18 | the seconds and milliseconds of the instant are unchanged |
| `Time.SubtractMinutesCompose` | lib/time.ts:16-18 | subtracting zero is the identity, and subtracting `a` then `b` equals subtracting `a + b` |
| `Time.CountdownParts` | lib/time.ts:30-59 | a missing target gives 0 and `00:00:00`; otherwise the total is the positive part of the difference; hours are at least two digits, minutes and seconds exactly two and below 60; hours·3600 + minutes·60 + seconds is the total in whole seconds |
| `Time.TimePhase` | lib/time.ts:61-73 | night exactly for hours 20–23 and 0–3; pre-fajr for 4–5; day for 6–16; sunset for 17–19 |
| `Time.PhaseChanges` | lib/time.ts:61-73 | hour by hour, the phase changes exactly at 4, 6, 17 and 20, each time to the next phase of the night → pre-fajr → day → sunset cycle |
| `Time.BackgroundClass` | lib/time.ts:75-86 | each phase gets a class from which that phase is read back: dawn for pre-fajr, day, sunset, and night otherwise |
| `Time.BackgroundClassDistinct` | lib/time.ts:75-86 | the four phases get four distinct classes, each of which determines its phase |
| `PrayerCalendar.ValidateQuery` | app/api/prayer-calendar/route.ts:11-18 | the query is accepted exactly when lat is in [-90, 90], lng is in [-180, 180], the method (if given) is one of the seven and the offset (if given) is a number in [5, 30]; accepted values pass through unchanged and omitted ones stay omitted |
| `PrayerCalendar.AladhanCode` | app/api/prayer-calendar/route.ts:57-77 | ISNA↔2, Egyptian↔5, Makkah↔4, Karachi↔1, Tehran↔7, Jafari↔0, MWL↔3, in both directions |
| `PrayerCalendar.AladhanCodeInjective` | app/api/prayer-calendar/route.ts:57-77 | distinct methods are sent as distinct codes |
| `PrayerCalendar.ClockMinus` | app/api/prayer-calendar/route.ts:87-95 | for an in-range clock, adding a day only when negative equals reduction modulo 1440, formatted `HH:MM` with the hour below 24 |
| `PrayerCalendar.ImsakFromFajr` | app/api/prayer-calendar/route.ts:79-96 | unparsable Fajr gives back its text before the first space; an in-range Fajr gives (h·60 + m − offset) mod 1440 as `HH:MM` |
| `PrayerCalendar.ImsakParsesBack` | app/api/prayer-calendar/route.ts:87-95 | a derived Imsak is again a valid clock reading: Fajr minus the offset modulo a day, hour below 24, minute below 60 |
| `PrayerCalendar.WrapIsModulo` | app/api/prayer-calendar/route.ts:87-90 | within a day of zero, adding 1440 only to negatives is the same as taking the value modulo 1440 |
| `PrayerCalendar.ImsakExample` | app/api/prayer-calendar/route.ts:79-96 | Fajr `04:05` with offset 10 gives `03:55` |
| `PrayerCalendar.ImsakWrapExample` | app/api/prayer-calendar/route.ts:79-96 | Fajr `00:05 (+07)` with offset 10 gives `23:55`: the annotation is dropped and the time wraps past midnight |
| `PrayerCalendar.ImsakUnparsableExample` | app/api/prayer-calendar/route.ts:84-86 | a Fajr that is not a clock reading comes back as its first token |
| `PrayerCalendar.IsoFromDmyFields` | app/api/prayer-calendar/route.ts:126-127 | a three-field date has its first and third fields swapped |
| `PrayerCalendar.IsoFromDmyInvolution` | app/api/prayer-calendar/route.ts:126-127 | rewriting a three-field date twice returns the original |
| `PrayerCalendar.IsoFromDmyExample` | app/api/prayer-calendar/route.ts:126-127 | `05-03-2025` becomes `2025-03-05` |
| `PrayerCalendar.NormalizeAladhan` | app/api/prayer-calendar/route.ts:122-140 | one day per entry, in order: date rewritten, Hijri label = Hijri date + space + month name, Imsak derived from the raw Fajr, Fajr and Maghrib verbatim |
| `PrayerCalendar.NormalizeMuslimSalat` | app/api/prayer-calendar/route.ts:165-180 | one day per item, in order: date and label are `date_for` verbatim, no Hijri label, Imsak derived from Fajr, Fajr and Maghrib verbatim |
| `PrayerCalendar.FetchMuslimSalat` | app/api/prayer-calendar/route.ts:143-181 | days exactly when the key is set and the body passed the schema; an exception exactly when the key is set and the call threw; otherwise no data |
| `PrayerCalendar.FetchAladhan` | app/api/prayer-calendar/route.ts:98-141 | days exactly on an ok status, a schema match and code 200; an exception exactly when the call threw; otherwise no data |
| `PrayerCalendar.Get` | app/api/prayer-calendar/route.ts:183-260 | 400 exactly when validation fails, with no request sent; a 200 carries one provider's normalised days; at most two requests; for a valid query the first request is MuslimSalat at the query's coordinates exactly when the key is set, MuslimSalat is never asked later, and every Aladhan request carries the query's coordinates, the server's month and year and the method's code |
| `PrayerCalendar.InvalidQueryNeverFetches` | app/api/prayer-calendar/route.ts:189-208 | an out-of-range latitude, a missing longitude, offset 4 or an unknown method give 400 and no provider request |
| `PrayerCalendar.FirstProviderWins` | app/api/prayer-calendar/route.ts:216-226 | a MuslimSalat list, even an empty one, is the answer and Aladhan is never asked |
| `PrayerCalendar.FallbackToSecondProvider` | app/api/prayer-calendar/route.ts:209-249 | with no key or a failed first provider, exactly two requests are sent with a key (MuslimSalat at the query's coordinates, then Aladhan) and exactly one without; Aladhan is asked with the method's code (MWL by default), and its result decides: days, 502, or an escaping exception |
| `PrayerCalendar.BothProvidersFail` | app/api/prayer-calendar/route.ts:237-249 | when neither provider yields days (and Aladhan does not throw) the answer is 502 |
| `HomePage.TodayIsoInjective` | app/page.tsx:159-165 | distinct dates give distinct `todayIso` strings |
| `HomePage.TodayIso` | app/page.tsx:159-165 | the date text splits on `-` into exactly three fields that read back as the year, month and day, the month and day at least two digits wide |
| `HomePage.AladhanDateMatchesTodayIso` | app/page.tsx:159-165 | an Aladhan date with two-digit day and month is rewritten into exactly that day's `todayIso` |
| `HomePage.TodayIndex` | app/page.tsx:167-176 | the result is the first index whose date is today's, or none exactly when no day has today's date |
| `HomePage.ActiveIndex` | app/page.tsx:178-189 | the selection wins, then today's index, then the first day (index 0) of a non-empty schedule; none exactly when there is neither selection nor today's index and the schedule is missing or empty |
| `HomePage.ActiveIndexInRange` | app/page.tsx:167-189 | without a selection, the shown day exists exactly when the schedule is non-empty, and it is today's day whenever today is in the schedule |
| `HomePage.RamadanDay` | app/page.tsx:230-231 | a day number exists exactly when today's index does, and it is that index plus one |
| `HomePage.TodayTimesFor` | app/page.tsx:210-214 | all three instants exist; Imsak is exactly the offset before Fajr; an unparsable Fajr or Maghrib stays at the day's midnight |
| `HomePage.TodayTimesOnDate` | app/page.tsx:210-214 | with valid clock readings, Fajr and Maghrib fall on the shown day's date at their hour and minute, with zero seconds and milliseconds, and Imsak is the offset before Fajr |
| `HomePage.PageImsakMatchesServer` | app/page.tsx:210-214 | the Imsak instant the page derives for a day equals the server's Imsak string for that day's Fajr placed on the day's date, or that instant minus a day when Fajr minus the offset wraps past midnight |
| `HomePage.NextTimeString` | app/page.tsx:441-448 | none gives `04:30`; an instant gives five characters, two digits reading as its local hour, a `:`, and two digits reading as its local minute |
| `HomePage.ResolveNextEvent` | app/page.tsx:388-439 | never Fajr; the placeholder without Imsak or Maghrib; Imsak before Imsak; Maghrib (always in the future) before Maghrib; afterwards tomorrow's Imsak: none with no today index, the next day's Fajr minus the offset, or past the last day today's Imsak clock time on the current date minus the offset |
| `HomePage.FallbackTargetAlreadyPassed` | app/page.tsx:420-430 | past the last day, on the same local day as today's Imsak, the "tomorrow's Imsak" target lies before now and the countdown reads zero |
| `HomePage.PageSchedule` | app/page.tsx:191-239 | with no schedule yet, no times and the placeholder event; the derivation fails exactly when the selection points past the end of the schedule; an empty schedule with no selection shows the placeholder too; otherwise the times are those of the active day (selection, else today, else the first day), all three exist, the next event is resolved from exactly those times, and the Ramadan day counts from today's index |
| `HomePage.ScheduleForToday` | app/page.tsx:167-239 | with no selection and today at `i`: the times are day `i`'s, the Ramadan day is `i + 1`, and after Maghrib the countdown aims at day `i + 1`'s Fajr minus the offset |
| `HomePage.ScheduleFollowsSelection` | app/page.tsx:178-239 | a selected day supplies the times and the next event resolved from them, while the Ramadan day still counts from today |
| `Preferences.DefaultPreferences` | lib/preferences.ts:27-34 | the defaults satisfy the schema, have notifications off, and use the same offset and method as the calendar route's defaults for omitted parameters (app/api/prayer-calendar/route.ts:213-214) |
| `Preferences.Encode` | lib/preferences.ts:61 | the stored object has exactly the four schema keys, and it matches the schema exactly when the record is valid |
| `Preferences.Decode` | lib/preferences.ts:8-23 | a record is read exactly when the JSON matches the schema (offset in [5, 30], one of seven methods, one of three themes, a boolean); the record carries those field values |
| `Preferences.DecodeEncode` | lib/preferences.ts:18-23 | encoding then decoding returns a valid record and rejects an invalid one |
| `Preferences.DecodeIgnoresExtraKeys` | lib/preferences.ts:18-23 | keys outside the schema do not change what is read |
| `Preferences.Load` | lib/preferences.ts:36-54 | always schema-valid; the defaults with no window, with throwing storage, with nothing or empty text stored, with unparsable text, or with JSON that fails the schema; otherwise the record whose encoding is the stored schema fields |
| `Preferences.Save` | lib/preferences.ts:56-63 | no change without a window or with throwing storage; otherwise the record's JSON under the preferences key and every other key untouched |
| `Preferences.LoadAfterSave` | lib/preferences.ts:36-63 | with usable storage, loading after saving a valid record returns it, and after saving an invalid one returns the defaults |
| `Preferences.SaveWithoutStorage` | lib/preferences.ts:36-63 | with no usable storage, saving persists nothing and the next load gives the defaults |
| `Preferences.SaveIdempotent` | lib/preferences.ts:56-63 | saving the same record twice equals saving it once |
| `Preferences.SaveOverwrites` | lib/preferences.ts:56-63 | the last save wins |
| `Preferences.LoadIgnoresOtherKeys` | lib/preferences.ts:36-54 | writes to other storage keys do not change what is loaded |

## Left out

- Outbound HTTP is not modelled: the provider `fetch` calls, URL building, `toFixed` on coordinates, and the place search and reverse geocoding on the page. Each provider call is an abstract outcome instead.
- Response headers and error bodies are left out. Only the status and the days are kept.
- The `zod` schemas are predicates over already-typed values. The provider response schemas appear as the outcome "body passed the schema".
- JavaScript's `Number()` is modelled only on non-empty all-digit text. Signs, decimals, surrounding whitespace and `Number("") == 0` are not modelled. So `"04:"` counts as unparsable, and Imsak at offset 10 comes back as `"04:"`, where the source reads the empty minutes as 0 and gives `"03:50"`. `"+4:05"` and `"4.5:00"` likewise parse in the source but not in the model.
- Clock.ParseClockShape: rejecting an empty `a` or `b` follows that `Number()` model. The source reads an empty piece as 0, so it accepts `"04:"`.
- Offsets are integers. The schemas accept fractional offsets in [5, 30]; those are not modelled.
- Coordinates are exact rationals; floating-point rounding is left out.
- The query parameter coercion (`z.coerce.number`) is folded into `Param`: absent, not a number, or a number.
- Time zones and daylight-saving time are left out. Instants are local wall-clock milliseconds, and how the host parses a date string is the parameter `localMidnight`. An `Invalid Date` is not modelled.
- `formatTime` is left out because it depends on the locale (`toLocaleTimeString`).
- Notifications, timers and the `setTimeout` scheduling are left out, as are all rendering components, theme class toggling and the settings slider's range.
- The readable date label is modelled with the separator ` · `. The source file writes that glyph mis-encoded. The label and the page's Gregorian and Hijri display strings are display only.
- The JSON text itself is not modelled: local storage holds parsed JSON values, with "empty text" and "unparsable text" as separate stored states. `JSON.stringify` followed by `JSON.parse` is taken to give the same value back.
- Storage write failures (quota) are folded into "storage throws". Reads and writes are not distinguished.
- The JSON number type is integral, matching the integer offsets above.
- In the no-next-day branch of `resolveNextEvent`, the model keeps the source's behaviour as written: today's Imsak clock time on the current date, reduced by the offset again. `HomePage.FallbackTargetAlreadyPassed` states the consequence. The model does not replace this with a "corrected" target, since the branch is a deliberate approximation for the end of the schedule.

=== FILE: clock.dfy ===
/**
 * The `HH:MM` wall-clock grammar shared by the calendar route and the time
 * helpers: both keep the text before the first space, split it on `:`, and
 * read the first two pieces as numbers.
 */
module Clock {
  import opened Options
  import opened Text

  /**
   * Hours and minutes of a time string such as `"04:05"` or `"04:05 (WIB)"`;
   * `None` when either of the first two `:`-pieces is not a number (a missing
   * piece reads as `undefined`, which is not a number either).
   */
  function ParseClock(s: string): Option<(nat, nat)>
  {
    var parts := Split(Before(s, ' '), ':');
    if |parts| < 2 then None
    else
      match (ParseNat(parts[0]), ParseNat(parts[1]))
      case (Some(h), Some(m)) => Some((h, m))
      case _ => None
  }

  /**
   * What `ParseClock` accepts, for text without a space: nothing without a
   * `:`; otherwise it looks only at the pieces `a` and `b` around the first
   * `:`, ignoring whatever follows a second `:`, and succeeds exactly when
   * both are non-empty strings of decimal digits.
   */
  lemma ParseClockShape(a: string, b: string, rest: string)
    requires ' ' !in a && ' ' !in b && ' ' !in rest
    requires ':' !in a && ':' !in b
    ensures ParseClock(a) == None
    ensures ParseClock(a + ":" + b + ":" + rest) == ParseClock(a + ":" + b)
    ensures ParseClock(a + ":" + b).Some? <==> |a| > 0 && AllDigits(a) && |b| > 0 && AllDigits(b)
  {
    BeforeWhole(a, ' ');
    BeforeWhole(a, ':');
    ClockPieces(a, b, rest);
  }

  /** The reading of `a:b`, or of `a:b:rest`, is the decimal value of each piece. */
  lemma ParseClockValue(a: string, b: string, rest: string)
    requires |a| > 0 && AllDigits(a) && |b| > 0 && AllDigits(b)
    requires ' ' !in rest
    ensures ParseClock(a + ":" + b) == Some((DigitsValue(a), DigitsValue(b)))
    ensures ParseClock(a + ":" + b + ":" + rest) == Some((DigitsValue(a), DigitsValue(b)))
  {
    DigitsHaveNoSeparator(a, ' ');
    DigitsHaveNoSeparator(b, ' ');
    DigitsHaveNoSeparator(a, ':');
    DigitsHaveNoSeparator(b, ':');
    ClockPieces(a, b, rest);
  }

  /** Space-free `a:b` and `a:b:rest` both split into `a` and `b` first. */
  lemma ClockPieces(a: string, b: string, rest: string)
    requires ' ' !in a && ' ' !in b && ' ' !in rest
    requires ':' !in a && ':' !in b
    ensures var parts := Split(Before(a + ":" + b, ' '), ':');
      |parts| == 2 && parts[0] == a && parts[1] == b
    ensures var parts := Split(Before(a + ":" + b + ":" + rest, ' '), ':');
      |parts| >= 3 && parts[0] == a && parts[1] == b
  {
    var short := a + ":" + b;
    var long := a + ":" + b + ":" + rest;
    assert ' ' !in short && ' ' !in long;
    BeforeWhole(short, ' ');
    BeforeWhole(long, ' ');
    assert short == Join([a, b], ':');
    SplitJoin([a, b], ':');
    SplitTwoThenTail(a, b, rest, ':');
  }

  /** Two zero-padded fields joined by `:`, e.g. `FormatClock(3, 5) == "03:05"`. */
  function FormatClock(h: nat, m: nat): string {
    Pad2(h) + ":" + Pad2(m)
  }

  /** The text before the first space of `s + " " + note` is `s` itself, when `s` has no space. */
  lemma BeforeAnnotation(s: string, note: string)
    requires ' ' !in s
    ensures Before(s + " " + note, ' ') == s
  {
    SplitPrefix(s, " " + note, ' ');
    assert s + " " + note == s + (" " + note);
    assert Split(" " + note, ' ')[0] == "";
  }

  /** A trailing annotation after a space, such as a time-zone tag, does not change the reading. */
  lemma ParseClockIgnoresAnnotation(s: string, note: string)
    requires ' ' !in s
    ensures ParseClock(s + " " + note) == ParseClock(s)
  {
    BeforeAnnotation(s, note);
    SplitJoin([s], ' ');
    assert Join([s], ' ') == s;
  }

  /** Formatting a clock reading and parsing it again gives the reading back. */
  lemma ParseFormatClock(h: nat, m: nat)
    ensures ParseClock(FormatClock(h, m)) == Some((h, m))
    ensures h < 100 && m < 100 ==> |FormatClock(h, m)| == 5
  {
    var s := FormatClock(h, m);
    ParsePad2(h);
    ParsePad2(m);
    DigitsHaveNoSeparator(Pad2(h), ':');
    DigitsHaveNoSeparator(Pad2(m), ':');
    DigitsHaveNoSeparator(Pad2(h), ' ');
    DigitsHaveNoSeparator(Pad2(m), ' ');
    assert s == Join([Pad2(h), Pad2(m)], ':');
    SplitJoin([Pad2(h), Pad2(m)], ':');
    assert ' ' !in s;
    SplitJoin([s], ' ');
    assert Join([s], ' ') == s;
    assert Before(s, ' ') == s;
    if h < 100 && m < 100 {
      assert NatToString(h / 10) == [DigitChar(h / 10)] by { if h >= 10 { assert h / 10 < 10; } }
      assert |Pad2(h)| == 2;
      assert NatToString(m / 10) == [DigitChar(m / 10)] by { if m >= 10 { assert m / 10 < 10; } }
      assert |Pad2(m)| == 2;
    }
  }
}

=== FILE: home_page.dfy ===
/**
 * The schedule logic of the home page (`app/page.tsx`): which day is today,
 * which day is shown, the instants of the shown day, and the next event the
 * countdown aims at.
 *
 * Two inputs of the page come from the host rather than from the code:
 * `localMidnight` is how the runtime reads `new Date(date + "T00:00:00")`
 * for a schedule date, and every `new Date()` is an explicit instant
 * (`now`, `wallNow`).
 */
module HomePage {
  import opened Options
  import opened Text
  import opened Clock
  import opened Types
  import opened Time
  import PrayerCalendar

  const AwaitingLabel: string := "Awaiting schedule"
  const ImsakLabel: string := "Time until Imsak"
  const IftarLabel: string := "Time until Iftar"
  const TomorrowLabel: string := "Time until tomorrow's Imsak"

  /** The placeholder event shown while there is no schedule. */
  const Awaiting: NextEvent := NextEvent(Maghrib, AwaitingLabel, None)

  const NoTimes: TodayTimes := TodayTimes(None, None, None)

  /* ------------------------------------------------------------- today */

  /**
   * `todayIso`: the local date as `YYYY-MM-DD`, the year unpadded. The text
   * splits on `-` into exactly three fields that read back as the year, the
   * month and the day, the latter two at least two digits wide.
   */
  function TodayIso(year: nat, month: nat, day: nat): (s: string)
    ensures var parts := Split(s, '-');
      && |parts| == 3
      && ParseNat(parts[0]) == Some(year) && ParseNat(parts[1]) == Some(month) && ParseNat(parts[2]) == Some(day)
      && |parts[1]| >= 2 && |parts[2]| >= 2
  {
    ParseNatToString(year);
    ParsePad2(month);
    ParsePad2(day);
    DigitsHaveNoSeparator(NatToString(year), '-');
    DigitsHaveNoSeparator(Pad2(month), '-');
    DigitsHaveNoSeparator(Pad2(day), '-');
    JoinThree(NatToString(year), Pad2(month), Pad2(day), '-');
    SplitJoin([NatToString(year), Pad2(month), Pad2(day)], '-');
    NatToString(year) + "-" + Pad2(month) + "-" + Pad2(day)
  }

  /** Distinct dates give distinct `todayIso` strings. */
  lemma TodayIsoInjective(y: nat, m: nat, d: nat, y': nat, m': nat, d': nat)
    requires TodayIso(y, m, d) == TodayIso(y', m', d')
    ensures y == y' && m == m' && d == d'
  {
  }

  /**
   * An Aladhan date `DD-MM-YYYY` with two-digit day and month is rewritten
   * into exactly the string `todayIso` produces for that day, so the day can
   * be found by string comparison.
   */
  lemma AladhanDateMatchesTodayIso(y: nat, m: nat, d: nat)
    ensures PrayerCalendar.IsoFromDmy(Pad2(d) + "-" + Pad2(m) + "-" + NatToString(y)) == TodayIso(y, m, d)
  {
    ParsePad2(m);
    ParsePad2(d);
    DigitsHaveNoSeparator(NatToString(y), '-');
    DigitsHaveNoSeparator(Pad2(m), '-');
    DigitsHaveNoSeparator(Pad2(d), '-');
    PrayerCalendar.IsoFromDmyFields(Pad2(d), Pad2(m), NatToString(y));
  }

  /** `todayIndex`: the first day whose date is today's, if any (`findIndex`). */
  function TodayIndex(days: seq<PrayerDay>, todayIso: string): (r: Option<nat>)
    ensures r.Some? ==>
      && r.value < |days|
      && days[r.value].date == todayIso
      && forall j :: 0 <= j < r.value ==> days[j].date != todayIso
    ensures r.None? <==> forall j :: 0 <= j < |days| ==> days[j].date != todayIso
    decreases |days|
  {
    if |days| == 0 then None
    else if days[0].date == todayIso then Some(0)
    else
      match TodayIndex(days[1..], todayIso)
      case None => None
      case Some(i) => Some(i + 1)
  }

  /**
   * `activeIndex`: the day the user selected, else today, else the first day
   * of a non-empty schedule.
   */
  function ActiveIndex(selected: Option<nat>, todayIndex: Option<nat>, calendar: Option<seq<PrayerDay>>): (r: Option<nat>)
    ensures selected.Some? ==> r == selected
    ensures selected.None? && todayIndex.Some? ==> r == todayIndex
    ensures selected.None? && todayIndex.None? && calendar.Some? && |calendar.value| > 0 ==> r == Some(0)
    ensures r.None? <==> selected.None? && todayIndex.None? && (calendar.None? || |calendar.value| == 0)
  {
    if selected.Some? then selected
    else if todayIndex.Some? then todayIndex
    else if calendar.Some? && |calendar.value| > 0 then Some(0)
    else None
  }

  /**
   * Without a selection the shown day is a real day of the schedule: today's
   * entry when there is one, else the first; none only for an empty schedule.
   */
  lemma ActiveIndexInRange(days: seq<PrayerDay>, todayIso: string)
    ensures var a := ActiveIndex(None, TodayIndex(days, todayIso), Some(days));
      && (a.Some? <==> |days| > 0)
      && (a.Some? ==> a.value < |days|)
      && (a.Some? && (exists j :: 0 <= j < |days| && days[j].date == todayIso) ==> days[a.value].date == todayIso)
  {
  }

  /** `ramadanDay`: today's position in the schedule, counted from one. */
  function RamadanDay(todayIndex: Option<nat>): (r: Option<nat>)
    ensures r.Some? <==> todayIndex.Some?
    ensures r.Some? ==> r.value >= 1 && r.value - 1 == todayIndex.value
  {
    match todayIndex
    case None => None
    case Some(i) => Some(i + 1)
  }

  /* --------------------------------------------------------- day times */

  /**
   * The times of the shown day (the derivation feeding `todayTimes`): Fajr
   * and Maghrib placed on the day's date, Imsak the offset before Fajr. The
   * day's own `imsak` string is not read.
   */
  function TodayTimesFor(day: PrayerDay, offset: int, localMidnight: string -> int): (r: TodayTimes)
    ensures r.imsak.Some? && r.fajr.Some? && r.maghrib.Some?
    ensures r.imsak.value + offset * MsPerMinute == r.fajr.value
    ensures ParseClock(day.fajr).None? ==> r.fajr.value == localMidnight(day.date)
    ensures ParseClock(day.maghrib).None? ==> r.maghrib.value == localMidnight(day.date)
  {
    var base := localMidnight(day.date);
    var fajr := MakeDateFromTimeString(base, day.fajr);
    TodayTimes(Some(SubtractMinutes(fajr, offset)), Some(fajr), Some(MakeDateFromTimeString(base, day.maghrib)))
  }

  /**
   * With valid clock readings, the shown day's Fajr and Maghrib fall on that
   * day's date at the stated hour and minute, on the whole minute, and Imsak
   * the offset earlier.
   */
  lemma TodayTimesOnDate(day: PrayerDay, offset: int, localMidnight: string -> int, fh: nat, fm: nat, mh: nat, mm: nat)
    requires ParseClock(day.fajr) == Some((fh, fm)) && fh < 24 && fm < 60
    requires ParseClock(day.maghrib) == Some((mh, mm)) && mh < 24 && mm < 60
    ensures var r := TodayTimesFor(day, offset, localMidnight);
      && DayNumber(r.fajr.value) == DayNumber(localMidnight(day.date))
      && HourOf(r.fajr.value) == fh && MinuteOf(r.fajr.value) == fm
      && SecondOf(r.fajr.value) == 0 && MillisecondOf(r.fajr.value) == 0
      && DayNumber(r.maghrib.value) == DayNumber(localMidnight(day.date))
      && HourOf(r.maghrib.value) == mh && MinuteOf(r.maghrib.value) == mm
      && SecondOf(r.maghrib.value) == 0 && MillisecondOf(r.maghrib.value) == 0
      && r.imsak.value == r.fajr.value - offset * MsPerMinute
  {
    MakeDateFields(localMidnight(day.date), day.fajr, fh, fm);
    MakeDateFields(localMidnight(day.date), day.maghrib, mh, mm);
  }

  /**
   * The page's Imsak instant for a day agrees with the server's Imsak string
   * for that day's Fajr, read on the same date, when Fajr is at least the
   * offset past midnight; when the subtraction wraps, the page's instant is a
   * full day earlier than the server's clock reading placed on that date.
   */
  lemma PageImsakMatchesServer(day: PrayerDay, offset: int, localMidnight: string -> int, h: nat, m: nat)
    requires MinOffset <= offset <= MaxOffset
    requires ParseClock(day.fajr) == Some((h, m)) && h < 24 && m < 60
    ensures var page := TodayTimesFor(day, offset, localMidnight).imsak.value;
      var server := MakeDateFromTimeString(localMidnight(day.date), PrayerCalendar.ImsakFromFajr(day.fajr, offset));
      && (h * 60 + m >= offset ==> page == server)
      && (h * 60 + m < offset ==> page == server - MsPerDay)
  {
    var base, fajr := localMidnight(day.date), day.fajr;
    var x := h * 60 + m - offset;
    var t := x % PrayerCalendar.MinutesPerDay;
    PrayerCalendar.ImsakParsesBack(fajr, offset);
    PlacedMinutes(base, PrayerCalendar.ImsakFromFajr(fajr, offset), t);
    PlacedClock(base, fajr, h, m);
    var page := SubtractMinutes(MakeDateFromTimeString(base, fajr), offset);
    assert page == Midnight(base) + x * 60000;
    if x >= 0 {
      DivModUnique(x, 1440, 0, x);
      assert t == x;
    } else {
      DivModUnique(x, 1440, -1, x + 1440);
      assert t == x + 1440;
      assert t * 60000 == x * 60000 + 86400000;
    }
  }

  /* -------------------------------------------------------- next event */

  /**
   * `nextTimeString`: the local `HH:MM` of an instant, two zero-padded digits
   * on each side of the colon; `04:30` for none.
   */
  function NextTimeString(t: Option<int>): (s: string)
    ensures t.None? ==> s == "04:30"
    ensures t.Some? ==>
      && |s| == 5 && s[2] == ':' && AllDigits(s[..2]) && AllDigits(s[3..])
      && ParseNat(s[..2]) == Some(HourOf(t.value)) && ParseNat(s[3..]) == Some(MinuteOf(t.value))
      && ParseClock(s) == Some((HourOf(t.value), MinuteOf(t.value)))
  {
    match t
    case None => "04:30"
    case Some(instant) =>
      var h, m := HourOf(instant), MinuteOf(instant);
      ParseFormatClock(h, m);
      ParsePad2(h);
      ParsePad2(m);
      var s := FormatClock(h, m);
      assert s[..2] == Pad2(h) && s[3..] == Pad2(m);
      s
  }

  /**
   * `resolveNextEvent`, first match wins: no schedule yet; before Imsak;
   * before Maghrib; otherwise tomorrow's Imsak, taken from the next day of
   * the schedule, or, past its end, rebuilt from today's Imsak clock time on
   * the current date with the offset taken off once more.
   */
  function ResolveNextEvent(
    now: int, days: seq<PrayerDay>, todayIndex: Option<nat>, today: TodayTimes,
    offset: int, wallNow: int, localMidnight: string -> int): (r: NextEvent)
    ensures r.kind != Fajr
    ensures today.imsak.None? || today.maghrib.None? ==> r == Awaiting
    ensures today.imsak.Some? && today.maghrib.Some? ==>
      && (now < today.imsak.value ==> r == NextEvent(Imsak, ImsakLabel, today.imsak))
      && (today.imsak.value <= now < today.maghrib.value ==> r == NextEvent(Maghrib, IftarLabel, today.maghrib))
      && (r.kind == Maghrib ==> r.target.Some? && now < r.target.value)
      && (now >= today.imsak.value && now >= today.maghrib.value ==>
            && r.kind == Imsak && r.caption == TomorrowLabel
            && (todayIndex.None? ==> r.target.None?)
            && (todayIndex.Some? && todayIndex.value + 1 < |days| ==>
                  r.target == Some(SubtractMinutes(
                    MakeDateFromTimeString(localMidnight(days[todayIndex.value + 1].date), days[todayIndex.value + 1].fajr),
                    offset)))
            && (todayIndex.Some? && todayIndex.value + 1 >= |days| ==>
                  r.target == Some(Midnight(wallNow) + HourOf(today.imsak.value) * MsPerHour
                                   + MinuteOf(today.imsak.value) * MsPerMinute - offset * MsPerMinute)))
  {
    if today.imsak.None? || today.maghrib.None? then Awaiting
    else if now < today.imsak.value then NextEvent(Imsak, ImsakLabel, today.imsak)
    else if now < today.maghrib.value then NextEvent(Maghrib, IftarLabel, today.maghrib)
    else if todayIndex.None? then NextEvent(Imsak, TomorrowLabel, None)
    else if todayIndex.value + 1 >= |days| then
      var clock := NextTimeString(today.imsak);
      NextEvent(Imsak, TomorrowLabel, Some(SubtractMinutes(MakeDateFromTimeString(wallNow, clock), offset)))
    else
      var next := days[todayIndex.value + 1];
      NextEvent(Imsak, TomorrowLabel, Some(SubtractMinutes(MakeDateFromTimeString(localMidnight(next.date), next.fajr), offset)))
  }

  /**
   * After Maghrib on the last day of the schedule, evaluated on the same local
   * day as today's Imsak, the "tomorrow's Imsak" target lies before `now`:
   * it is today's Imsak minus the offset again, so the countdown reads zero.
   */
  lemma FallbackTargetAlreadyPassed(
    now: int, days: seq<PrayerDay>, i: nat, today: TodayTimes,
    offset: int, wallNow: int, localMidnight: string -> int)
    requires i + 1 >= |days|
    requires today.imsak.Some? && today.maghrib.Some?
    requires now >= today.imsak.value && now >= today.maghrib.value
    requires DayNumber(wallNow) == DayNumber(today.imsak.value)
    requires offset > 0
    ensures var r := ResolveNextEvent(now, days, Some(i), today, offset, wallNow, localMidnight);
      && r.target.Some?
      && r.target.value <= today.imsak.value - offset * MsPerMinute
      && r.target.value < now
      && CountdownParts(r.target, now).totalMs == 0
  {
    Decompose(today.imsak.value);
  }

  /* ------------------------------------------------------------- page */

  /** What the page derives for display from the schedule. */
  datatype Schedule = Schedule(todayTimes: TodayTimes, nextEvent: NextEvent, ramadanDay: Option<nat>)

  /**
   * The page's derivation (the `todayIndex`, `activeIndex` and schedule
   * memos). Before the schedule arrives it shows no times and the placeholder
   * event; it fails (`None`) exactly when a stale selection points past the
   * end of the schedule, where reading the shown day's date throws.
   */
  function PageSchedule(
    calendar: Option<seq<PrayerDay>>, selected: Option<nat>, todayIso: string,
    offset: int, now: int, wallNow: int, localMidnight: string -> int): (r: Option<Schedule>)
    ensures calendar.None? ==> r == Some(Schedule(NoTimes, Awaiting, None))
    ensures calendar.Some? ==> (r.None? <==> selected.Some? && selected.value >= |calendar.value|)
    ensures calendar == Some([]) && selected.None? ==> r == Some(Schedule(NoTimes, Awaiting, None))
    ensures r.Some? && calendar.Some? && |calendar.value| > 0 ==>
      && r.value.ramadanDay == RamadanDay(TodayIndex(calendar.value, todayIso))
      && r.value.todayTimes.imsak.Some? && r.value.todayTimes.fajr.Some? && r.value.todayTimes.maghrib.Some?
    ensures r.Some? && calendar.Some? && |calendar.value| > 0 ==>
      var todayIndex := TodayIndex(calendar.value, todayIso);
      var active := ActiveIndex(selected, todayIndex, calendar);
      && active.Some? && active.value < |calendar.value|
      && r.value.todayTimes == TodayTimesFor(calendar.value[active.value], offset, localMidnight)
      && r.value.nextEvent
         == ResolveNextEvent(now, calendar.value, todayIndex, r.value.todayTimes, offset, wallNow, localMidnight)
  {
    var todayIndex := if calendar.Some? then TodayIndex(calendar.value, todayIso) else None;
    var active := ActiveIndex(selected, todayIndex, calendar);
    if calendar.None? || active.None? then Some(Schedule(NoTimes, Awaiting, None))
    else if active.value >= |calendar.value| then None
    else
      var times := TodayTimesFor(calendar.value[active.value], offset, localMidnight);
      Some(Schedule(
        times,
        ResolveNextEvent(now, calendar.value, todayIndex, times, offset, wallNow, localMidnight),
        RamadanDay(todayIndex)))
  }

  /**
   * With no selection and today in the schedule at `i`: the times are day
   * `i`'s, the Ramadan day is `i + 1`, and after Maghrib the countdown aims
   * at day `i + 1`'s Fajr minus the offset when that day exists.
   */
  lemma ScheduleForToday(
    days: seq<PrayerDay>, i: nat, todayIso: string,
    offset: int, now: int, wallNow: int, localMidnight: string -> int)
    requires i < |days| && days[i].date == todayIso
    requires forall j :: 0 <= j < i ==> days[j].date != todayIso
    ensures var s := PageSchedule(Some(days), None, todayIso, offset, now, wallNow, localMidnight);
      && s.Some?
      && s.value.todayTimes == TodayTimesFor(days[i], offset, localMidnight)
      && s.value.ramadanDay == Some(i + 1)
      && (now >= s.value.todayTimes.imsak.value && now >= s.value.todayTimes.maghrib.value && i + 1 < |days| ==>
            s.value.nextEvent == NextEvent(Imsak, TomorrowLabel, Some(SubtractMinutes(
              MakeDateFromTimeString(localMidnight(days[i + 1].date), days[i + 1].fajr), offset))))
  {
    assert TodayIndex(days, todayIso) == Some(i);
  }

  /**
   * A selected day replaces today as the source of the times and of the
   * countdown, while the Ramadan day number still counts from today.
   */
  lemma ScheduleFollowsSelection(
    days: seq<PrayerDay>, k: nat, todayIso: string,
    offset: int, now: int, wallNow: int, localMidnight: string -> int)
    requires k < |days|
    ensures var s := PageSchedule(Some(days), Some(k), todayIso, offset, now, wallNow, localMidnight);
      && s.Some?
      && s.value.todayTimes == TodayTimesFor(days[k], offset, localMidnight)
      && s.value.nextEvent == ResolveNextEvent(now, days, TodayIndex(days, todayIso),
           TodayTimesFor(days[k], offset, localMidnight), offset, wallNow, localMidnight)
      && s.value.ramadanDay == RamadanDay(TodayIndex(days, todayIso))
  {
  }
}

=== FILE: options.dfy ===
/** The optional value used wherever the source has `T | null` or `T | undefined`. */
module Options {

  datatype Option<+T> = None | Some(value: T) {

    /** The wrapped value, or `default` when there is none (the `??` operator). */
    function GetOr(default: T): T {
      match this
      case Some(v) => v
      case None => default
    }
  }
}

=== FILE: prayer_calendar.dfy ===
/**
 * The prayer-calendar endpoint (`app/api/prayer-calendar/route.ts`): query
 * validation, the Aladhan method-code table, Imsak derivation from Fajr, the
 * normalisation of each provider's entries into `PrayerDay`s, and the
 * provider fallback that decides the response.
 *
 * Each upstream call is an abstract outcome (`Upstream`): what the network and
 * the schema check produced, without the HTTP traffic itself.
 */
module PrayerCalendar {
  import opened Options
  import opened Text
  import opened Clock
  import opened Types

  const MinutesPerDay: int := 1440
  const DefaultOffset: int := 10
  const DefaultMethod: Method := MWL

  /* ---------------------------------------------------------------- query */

  /**
   * A query parameter after numeric coercion: missing, present but not a
   * number, or a number.
   */
  datatype Param<T> = Absent | NotANumber | Given(value: T)

  datatype RawQuery = RawQuery(lat: Param<real>, lng: Param<real>, methodName: Option<string>, offset: Param<int>)

  /** The query as the schema hands it on: method and offset stay optional. */
  datatype Query = Query(lat: real, lng: real, calculationMethod: Option<Method>, offset: Option<int>)

  /**
   * `querySchema.safeParse`: latitude in [-90, 90] and longitude in
   * [-180, 180], both required; the method, if given, one of the seven names;
   * the offset, if given, a number in [5, 30].
   */
  function ValidateQuery(q: RawQuery): (r: Option<Query>)
    ensures r.Some? <==>
      && q.lat.Given? && -90.0 <= q.lat.value <= 90.0
      && q.lng.Given? && -180.0 <= q.lng.value <= 180.0
      && (q.methodName.Some? ==> q.methodName.value in MethodNames)
      && !q.offset.NotANumber?
      && (q.offset.Given? ==> MinOffset <= q.offset.value <= MaxOffset)
    ensures r.Some? ==>
      && r.value.lat == q.lat.value && r.value.lng == q.lng.value
      && (q.methodName.None? <==> r.value.calculationMethod.None?)
      && (q.methodName.Some? ==> MethodName(r.value.calculationMethod.value) == q.methodName.value)
      && (q.offset.Absent? <==> r.value.offset.None?)
      && (q.offset.Given? ==> r.value.offset == Some(q.offset.value))
  {
    var latOk := q.lat.Given? && -90.0 <= q.lat.value <= 90.0;
    var lngOk := q.lng.Given? && -180.0 <= q.lng.value <= 180.0;
    var chosen := if q.methodName.Some? then ParseMethod(q.methodName.value) else None;
    var methodOk := q.methodName.None? || chosen.Some?;
    var offsetOk := q.offset.Absent? || (q.offset.Given? && MinOffset <= q.offset.value <= MaxOffset);
    if latOk && lngOk && methodOk && offsetOk then
      Some(Query(q.lat.value, q.lng.value, chosen, if q.offset.Given? then Some(q.offset.value) else None))
    else None
  }

  /* -------------------------------------------------------- method codes */

  /** `methodToAladhanCode`: the provider's numeric code for a method. */
  function AladhanCode(m: Method): (code: nat)
    ensures code <= 7
    ensures m == ISNA <==> code == 2
    ensures m == Egyptian <==> code == 5
    ensures m == Makkah <==> code == 4
    ensures m == Karachi <==> code == 1
    ensures m == Tehran <==> code == 7
    ensures m == Jafari <==> code == 0
    ensures m == MWL <==> code == 3
  {
    match m
    case ISNA => 2
    case Egyptian => 5
    case Makkah => 4
    case Karachi => 1
    case Tehran => 7
    case Jafari => 0
    case MWL => 3
  }

  /** Distinct methods are sent as distinct codes. */
  lemma AladhanCodeInjective(a: Method, b: Method)
    ensures AladhanCode(a) == AladhanCode(b) ==> a == b
  {
  }

  /* ------------------------------------------------------ Imsak from Fajr */

  /**
   * The arithmetic half of `computeImsakFromFajr`: `h:m` moved back by the
   * offset, adding a day only when the result is negative, as zero-padded
   * `HH:MM`. On a valid clock reading this is subtraction modulo a day.
   */
  function ClockMinus(h: nat, m: nat, offset: int): (imsak: string)
    requires MinOffset <= offset <= MaxOffset
    ensures h < 24 && m < 60 ==>
      var t := (h * 60 + m - offset) % MinutesPerDay;
      && imsak == FormatClock(t / 60, t % 60)
      && t / 60 < 24
  {
    var total := h * 60 + m - offset;
    var wrapped := if total < 0 then total + MinutesPerDay else total;
    WrapIsModulo(total);
    FormatClock(wrapped / 60, wrapped % 60)
  }

  /**
   * `computeImsakFromFajr`: Fajr moved back by the offset, wrapping past
   * midnight, as a zero-padded `HH:MM`; when Fajr does not parse, the text
   * before its first space, unchanged.
   */
  function ImsakFromFajr(fajr: string, offset: int): (imsak: string)
    requires MinOffset <= offset <= MaxOffset
    ensures ParseClock(fajr).None? ==> imsak == Before(fajr, ' ')
    ensures ParseClock(fajr).Some? ==> imsak == ClockMinus(ParseClock(fajr).value.0, ParseClock(fajr).value.1, offset)
    ensures ParseClock(fajr).Some? && ParseClock(fajr).value.0 < 24 && ParseClock(fajr).value.1 < 60 ==>
      var t := (ParseClock(fajr).value.0 * 60 + ParseClock(fajr).value.1 - offset) % MinutesPerDay;
      && imsak == FormatClock(t / 60, t % 60)
  {
    var clock := ParseClock(fajr);
    if clock.None? then Before(fajr, ' ') else ClockMinus(clock.value.0, clock.value.1, offset)
  }

  /**
   * A derived Imsak is again a valid clock reading: it parses back to the
   * hours and minutes of Fajr minus the offset, modulo a day.
   */
  lemma ImsakParsesBack(fajr: string, offset: int)
    requires MinOffset <= offset <= MaxOffset
    requires ParseClock(fajr).Some? && ParseClock(fajr).value.0 < 24 && ParseClock(fajr).value.1 < 60
    ensures var t := (ParseClock(fajr).value.0 * 60 + ParseClock(fajr).value.1 - offset) % MinutesPerDay;
      && ParseClock(ImsakFromFajr(fajr, offset)) == Some((t / 60, t % 60))
      && t / 60 < 24 && t % 60 < 60
  {
    var t := (ParseClock(fajr).value.0 * 60 + ParseClock(fajr).value.1 - offset) % MinutesPerDay;
    ParseFormatClock(t / 60, t % 60);
  }

  /** Adding a day only when negative is reduction modulo a day, for values within a day of zero. */
  lemma WrapIsModulo(total: int)
    ensures -MinutesPerDay <= total < MinutesPerDay ==>
      (if total < 0 then total + MinutesPerDay else total) == total % MinutesPerDay
  {
  }

  /** Worked example: Fajr `04:05` at the default offset gives `03:55`. */
  lemma ImsakExample(fajr: string)
    requires fajr == "04:05"
    ensures ImsakFromFajr(fajr, 10) == "03:55"
  {
    PadExamples();
    ParseFormatClock(4, 5);
    assert FormatClock(4, 5) == "04:05";
    assert ClockMinus(4, 5, 10) == FormatClock(3, 55);
    assert FormatClock(3, 55) == "03:55";
  }

  /** Worked example: Fajr `00:05`, annotated, wraps to `23:55` of the clock. */
  lemma ImsakWrapExample(fajr: string)
    requires fajr == "00:05 (+07)"
    ensures ImsakFromFajr(fajr, 10) == "23:55"
  {
    AnnotatedClock(fajr);
    WrappedClock(fajr);
  }

  lemma AnnotatedClock(fajr: string)
    requires fajr == "00:05 (+07)"
    ensures ParseClock(fajr) == Some((0, 5))
  {
    PadExamples();
    ParseFormatClock(0, 5);
    assert FormatClock(0, 5) == "00:05";
    assert fajr == "00:05" + " " + "(+07)";
    ParseClockIgnoresAnnotation("00:05", "(+07)");
  }

  lemma WrappedClock(fajr: string)
    requires ParseClock(fajr) == Some((0, 5))
    ensures ImsakFromFajr(fajr, 10) == "23:55"
  {
    PadExamples();
    assert ClockMinus(0, 5, 10) == FormatClock(23, 55);
  }

  /** Worked example: an unparsable Fajr comes back unchanged. */
  lemma ImsakUnparsableExample(fajr: string)
    requires fajr == "n/a"
    ensures ImsakFromFajr(fajr, 10) == fajr
  {
    NotAClock(fajr);
  }

  lemma PadExamples()
    ensures Pad2(0) == "00" && Pad2(3) == "03" && Pad2(4) == "04" && Pad2(5) == "05"
    ensures Pad2(23) == "23" && Pad2(55) == "55"
  {
    assert NatToString(0) == "0" && NatToString(3) == "3" && NatToString(4) == "4" && NatToString(5) == "5";
    assert NatToString(2) == "2";
    assert NatToString(23) == NatToString(2) + "3";
    assert NatToString(55) == NatToString(5) + "5";
  }

  lemma NotAClock(s: string)
    requires ':' !in s && ' ' !in s
    ensures ParseClock(s).None?
    ensures Before(s, ' ') == s
  {
    SplitJoin([s], ' ');
    SplitJoin([s], ':');
  }

  /* --------------------------------------------------------- date rewrite */

  /**
   * A piece of a destructured split: the `i`-th piece, or the text
   * `undefined` that a template literal makes of a missing one.
   */
  function Piece(parts: seq<string>, i: nat): string {
    if i < |parts| then parts[i] else "undefined"
  }

  /** The Aladhan `DD-MM-YYYY` date rewritten as `YYYY-MM-DD`. */
  function IsoFromDmy(dmy: string): string {
    var parts := Split(dmy, '-');
    Piece(parts, 2) + "-" + Piece(parts, 1) + "-" + Piece(parts, 0)
  }

  /** On a date of exactly three fields the rewrite swaps the first and third fields. */
  lemma IsoFromDmyFields(a: string, b: string, c: string)
    requires '-' !in a && '-' !in b && '-' !in c
    ensures IsoFromDmy(a + "-" + b + "-" + c) == c + "-" + b + "-" + a
  {
    JoinThree(a, b, c, '-');
    SplitJoin([a, b, c], '-');
    JoinThree(c, b, a, '-');
  }

  /** Rewriting a three-field date twice gives it back, so the rewrite is reversible. */
  lemma IsoFromDmyInvolution(dmy: string)
    requires |Split(dmy, '-')| == 3
    ensures IsoFromDmy(IsoFromDmy(dmy)) == dmy
  {
    var p := Split(dmy, '-');
    JoinSplit(dmy, '-');
    assert p == [p[0], p[1], p[2]];
    JoinThree(p[0], p[1], p[2], '-');
    IsoFromDmyFields(p[0], p[1], p[2]);
    IsoFromDmyFields(p[2], p[1], p[0]);
  }

  lemma IsoFromDmyExample(dmy: string)
    requires dmy == "05-03-2025"
    ensures IsoFromDmy(dmy) == "2025-03-05"
  {
    IsoFromDmyFields("05", "03", "2025");
    assert dmy == "05" + "-" + "03" + "-" + "2025";
  }

  /* ------------------------------------------------------ normalisation */

  datatype AladhanEntry = AladhanEntry(
    fajr: string,
    maghrib: string,
    readable: string,
    gregorianDate: string,
    hijriDate: string,
    hijriMonthEn: string)

  datatype AladhanBody = AladhanBody(code: int, status: string, data: seq<AladhanEntry>)

  datatype MuslimSalatItem = MuslimSalatItem(dateFor: string, fajr: string, maghrib: string)

  /** The separator between the readable Gregorian date and the Hijri label. */
  const LabelSeparator: string := " · "

  function HijriLabel(e: AladhanEntry): string {
    e.hijriDate + " " + e.hijriMonthEn
  }

  function FromAladhan(e: AladhanEntry, offset: int): PrayerDay
    requires MinOffset <= offset <= MaxOffset
  {
    PrayerDay(
      IsoFromDmy(e.gregorianDate),
      HijriLabel(e),
      ImsakFromFajr(e.fajr, offset),
      e.fajr,
      e.maghrib,
      e.readable + LabelSeparator + HijriLabel(e))
  }

  /**
   * The Aladhan mapping: one day per entry, in order, with the date
   * rewritten, the Hijri label composed, Imsak derived from the raw Fajr, and
   * Fajr and Maghrib kept verbatim.
   */
  function NormalizeAladhan(entries: seq<AladhanEntry>, offset: int): (days: seq<PrayerDay>)
    requires MinOffset <= offset <= MaxOffset
    ensures |days| == |entries|
    ensures forall i :: 0 <= i < |entries| ==>
      && days[i].date == IsoFromDmy(entries[i].gregorianDate)
      && days[i].hijriDate == entries[i].hijriDate + " " + entries[i].hijriMonthEn
      && days[i].imsak == ImsakFromFajr(entries[i].fajr, offset)
      && days[i].fajr == entries[i].fajr
      && days[i].maghrib == entries[i].maghrib
    decreases |entries|
  {
    if |entries| == 0 then []
    else [FromAladhan(entries[0], offset)] + NormalizeAladhan(entries[1..], offset)
  }

  function FromMuslimSalat(item: MuslimSalatItem, offset: int): PrayerDay
    requires MinOffset <= offset <= MaxOffset
  {
    PrayerDay(item.dateFor, "", ImsakFromFajr(item.fajr, offset), item.fajr, item.maghrib, item.dateFor)
  }

  /**
   * The MuslimSalat mapping: one day per item, in order, whose date and label
   * are `date_for` verbatim, with no Hijri label and Imsak derived from Fajr.
   */
  function NormalizeMuslimSalat(items: seq<MuslimSalatItem>, offset: int): (days: seq<PrayerDay>)
    requires MinOffset <= offset <= MaxOffset
    ensures |days| == |items|
    ensures forall i :: 0 <= i < |items| ==>
      && days[i].date == items[i].dateFor
      && days[i].readableDateLabel == items[i].dateFor
      && days[i].hijriDate == ""
      && days[i].imsak == ImsakFromFajr(items[i].fajr, offset)
      && days[i].fajr == items[i].fajr
      && days[i].maghrib == items[i].maghrib
    decreases |items|
  {
    if |items| == 0 then []
    else [FromMuslimSalat(items[0], offset)] + NormalizeMuslimSalat(items[1..], offset)
  }

  /* ------------------------------------------------------------ providers */

  /**
   * What one upstream call produced: a non-ok HTTP status, a body that fails
   * the response schema, an exception (network failure or unreadable JSON),
   * or a body that passes the schema.
   */
  datatype Upstream<B> = HttpError | SchemaMismatch | Throws | Ok(body: B)

  /** A provider function's result: its `PrayerDay[]`, `null`, or an exception. */
  datatype Attempt = Days(days: seq<PrayerDay>) | NoData | Raised

  /** `fetchCalendarFromMuslimSalat`; without an API key no request is made. */
  function FetchMuslimSalat(hasKey: bool, outcome: Upstream<seq<MuslimSalatItem>>, offset: int): (a: Attempt)
    requires MinOffset <= offset <= MaxOffset
    ensures a.Days? <==> hasKey && outcome.Ok?
    ensures a.Raised? <==> hasKey && outcome.Throws?
    ensures a.Days? ==> a.days == NormalizeMuslimSalat(outcome.body, offset)
  {
    if !hasKey then NoData
    else
      match outcome
      case HttpError => NoData
      case Throws => Raised
      case SchemaMismatch => NoData
      case Ok(items) => Days(NormalizeMuslimSalat(items, offset))
  }

  /** `fetchCalendarFromAladhan`: usable only with an ok status, a schema match and code 200. */
  function FetchAladhan(outcome: Upstream<AladhanBody>, offset: int): (a: Attempt)
    requires MinOffset <= offset <= MaxOffset
    ensures a.Days? <==> outcome.Ok? && outcome.body.code == 200
    ensures a.Raised? <==> outcome.Throws?
    ensures a.Days? ==> a.days == NormalizeAladhan(outcome.body.data, offset)
  {
    match outcome
    case HttpError => NoData
    case Throws => Raised
    case SchemaMismatch => NoData
    case Ok(body) => if body.code != 200 then NoData else Days(NormalizeAladhan(body.data, offset))
  }

  /* -------------------------------------------------------------- handler */

  /** An outbound request, with the parameters that identify it. */
  datatype Request =
    | MuslimSalatRequest(lat: real, lng: real)
    | AladhanRequest(lat: real, lng: real, month: int, year: int, methodCode: nat)

  /**
   * The handler's answer: 200 with the days, 400, 502, or an exception from
   * the second provider that escapes the handler.
   */
  datatype Response = Success(days: seq<PrayerDay>) | BadRequest | BadGateway | Uncaught

  function StatusCode(r: Response): Option<int> {
    match r
    case Success(_) => Some(200)
    case BadRequest => Some(400)
    case BadGateway => Some(502)
    case Uncaught => None
  }

  /** The response together with the requests sent while producing it, in order. */
  datatype Handled = Handled(response: Response, requests: seq<Request>)

  /** The server's environment: whether the MuslimSalat key is set, and today's month and year. */
  datatype ServerEnv = ServerEnv(hasKey: bool, month: int, year: int)

  /**
   * `GET`: validate the query; try MuslimSalat, treating any exception as no
   * data; only then try Aladhan; answer with the first provider's days, or
   * 502 when neither produced any.
   */
  function Get(q: RawQuery, env: ServerEnv, first: Upstream<seq<MuslimSalatItem>>, second: Upstream<AladhanBody>): (h: Handled)
    ensures ValidateQuery(q).None? <==> h.response == BadRequest
    ensures ValidateQuery(q).None? ==> h.requests == []
    ensures h.response.Success? ==>
      || FetchMuslimSalat(env.hasKey, first, ValidateQuery(q).value.offset.GetOr(DefaultOffset)) == Days(h.response.days)
      || FetchAladhan(second, ValidateQuery(q).value.offset.GetOr(DefaultOffset)) == Days(h.response.days)
    ensures |h.requests| <= 2
    ensures forall i :: 0 <= i < |h.requests| ==> h.requests[i].MuslimSalatRequest? ==> i == 0
    ensures ValidateQuery(q).Some? ==>
      var v := ValidateQuery(q).value;
      && (env.hasKey <==> |h.requests| >= 1 && h.requests[0] == MuslimSalatRequest(v.lat, v.lng))
      && (forall i :: 0 <= i < |h.requests| && h.requests[i].AladhanRequest? ==>
            h.requests[i] == AladhanRequest(v.lat, v.lng, env.month, env.year,
                                            AladhanCode(v.calculationMethod.GetOr(DefaultMethod))))
  {
    match ValidateQuery(q)
    case None => Handled(BadRequest, [])
    case Some(v) =>
      var chosen := v.calculationMethod.GetOr(DefaultMethod);
      var offset := v.offset.GetOr(DefaultOffset);
      var firstRequests := if env.hasKey then [MuslimSalatRequest(v.lat, v.lng)] else [];
      match FetchMuslimSalat(env.hasKey, first, offset)
      case Days(days) => Handled(Success(days), firstRequests)
      case _ =>
        var requests := firstRequests + [AladhanRequest(v.lat, v.lng, env.month, env.year, AladhanCode(chosen))];
        match FetchAladhan(second, offset)
        case Days(days) => Handled(Success(days), requests)
        case NoData => Handled(BadGateway, requests)
        case Raised => Handled(Uncaught, requests)
  }

  /** A rejected query is answered 400 without contacting any provider. */
  lemma InvalidQueryNeverFetches(q: RawQuery, env: ServerEnv, first: Upstream<seq<MuslimSalatItem>>, second: Upstream<AladhanBody>)
    requires (q.lat.Given? && q.lat.value > 90.0) || !q.lng.Given? || q.offset == Given(4) || q.methodName == Some("UmmAlQura")
    ensures Get(q, env, first, second) == Handled(BadRequest, [])
    ensures StatusCode(Get(q, env, first, second).response) == Some(400)
  {
    assert "UmmAlQura" !in MethodNames;
  }

  /**
   * When MuslimSalat yields a list, even an empty one, that list is the
   * answer and Aladhan is never asked.
   */
  lemma FirstProviderWins(q: RawQuery, env: ServerEnv, items: seq<MuslimSalatItem>, second: Upstream<AladhanBody>)
    requires ValidateQuery(q).Some?
    requires env.hasKey
    ensures var v := ValidateQuery(q).value;
      Get(q, env, Ok(items), second) ==
        Handled(Success(NormalizeMuslimSalat(items, v.offset.GetOr(DefaultOffset))), [MuslimSalatRequest(v.lat, v.lng)])
  {
  }

  /**
   * A missing key, a failed status, a schema mismatch or an exception from
   * MuslimSalat all hand over to Aladhan, which is asked with the requested
   * method's code (MWL when none was given), and whose verdict decides the
   * response: its days on success, 502 on no data, an escaping exception when
   * it throws.
   */
  lemma FallbackToSecondProvider(q: RawQuery, env: ServerEnv, first: Upstream<seq<MuslimSalatItem>>, second: Upstream<AladhanBody>)
    requires ValidateQuery(q).Some?
    requires !env.hasKey || !first.Ok?
    ensures var v := ValidateQuery(q).value;
      var h := Get(q, env, first, second);
      && |h.requests| == (if env.hasKey then 2 else 1)
      && h.requests[|h.requests| - 1] ==
           AladhanRequest(v.lat, v.lng, env.month, env.year, AladhanCode(v.calculationMethod.GetOr(MWL)))
      && (h.requests[0].MuslimSalatRequest? <==> env.hasKey)
      && (env.hasKey ==> h.requests[0] == MuslimSalatRequest(v.lat, v.lng))
      && (second.Ok? && second.body.code == 200 ==>
            h.response == Success(NormalizeAladhan(second.body.data, v.offset.GetOr(DefaultOffset))))
      && (second.Throws? <==> h.response == Uncaught)
      && ((second.HttpError? || second.SchemaMismatch? || (second.Ok? && second.body.code != 200)) <==>
            h.response == BadGateway)
  {
  }

  /** Neither provider usable: exactly one 502 with no days. */
  lemma BothProvidersFail(q: RawQuery, env: ServerEnv)
    requires ValidateQuery(q).Some?
    ensures Get(q, env, HttpError, HttpError).response == BadGateway
    ensures StatusCode(Get(q, env, Throws, SchemaMismatch).response) == Some(502)
  {
  }
}

=== FILE: preferences.dfy ===
/**
 * User preferences kept in the browser's local storage (`lib/preferences.ts`):
 * the defaults, the schema check on what is read back, and the load and save
 * operations with every failure falling back to the defaults.
 */
module Preferences {
  import opened Options
  import opened Types
  import PrayerCalendar

  /** A parsed JSON value; numbers are integral (see README, "Left out"). */
  datatype Json =
    | JNull
    | JBool(b: bool)
    | JNumber(n: int)
    | JString(s: string)
    | JArray(items: seq<Json>)
    | JObject(fields: map<string, Json>)

  const PreferencesKey: string := "ramadhan-time-companion:v1:preferences"

  const OffsetKey: string := "imsakOffsetMinutes"
  const MethodKey: string := "calculationMethod"
  const ThemeKey: string := "theme"
  const NotificationsKey: string := "notificationsEnabled"

  /** The four fields the schema reads; any other key of the object is ignored. */
  const SchemaKeys: set<string> := {OffsetKey, MethodKey, ThemeKey, NotificationsKey}

  /**
   * What `getItem` can hand back for a key that is present: the empty string
   * (falsy, so treated like a missing key), text that `JSON.parse` rejects,
   * or the text of a JSON value.
   */
  datatype Stored = Blank | Malformed | Text(json: Json)

  /**
   * The environment the functions run in: no `window` at all (server
   * rendering), or a window whose storage either answers or throws.
   */
  datatype Browser =
    | NoWindow
    | Window(storage: map<string, Stored>, accessible: bool)

  /** Whether storage can be used: there is a window and its storage does not throw. */
  predicate Usable(b: Browser) {
    b.Window? && b.accessible
  }

  /* ------------------------------------------------------------ schema */

  /** A preferences record the schema accepts: only the offset is constrained. */
  predicate SchemaValid(p: AppPreferences) {
    MinOffset <= p.imsakOffsetMinutes <= MaxOffset
  }

  /**
   * The schema, stated on the JSON value directly: an object whose four
   * fields are a number within the bounds, one of the seven method names,
   * one of the three theme names and a boolean.
   */
  predicate MatchesSchema(j: Json) {
    && j.JObject?
    && OffsetKey in j.fields && j.fields[OffsetKey].JNumber?
    && MinOffset <= j.fields[OffsetKey].n <= MaxOffset
    && MethodKey in j.fields && j.fields[MethodKey].JString?
    && j.fields[MethodKey].s in MethodNames
    && ThemeKey in j.fields && j.fields[ThemeKey].JString?
    && j.fields[ThemeKey].s in ThemeNames
    && NotificationsKey in j.fields && j.fields[NotificationsKey].JBool?
  }

  /**
   * `defaultPreferences`: offset 10, MWL, dark theme, notifications off. The
   * offset and method are the ones the calendar route falls back to when a
   * request leaves them out, so a client on defaults and a bare request agree.
   */
  function DefaultPreferences(): (p: AppPreferences)
    ensures SchemaValid(p)
    ensures !p.notificationsEnabled
    ensures p.imsakOffsetMinutes == PrayerCalendar.DefaultOffset
    ensures p.calculationMethod == PrayerCalendar.DefaultMethod
  {
    AppPreferences(10, MWL, Dark, false)
  }

  /** `JSON.stringify` of a preferences record, as the JSON value it denotes. */
  function Encode(p: AppPreferences): (j: Json)
    ensures j.JObject? && j.fields.Keys == SchemaKeys
    ensures MatchesSchema(j) <==> SchemaValid(p)
  {
    ParseMethodName(p.calculationMethod);
    ParseThemeName(p.theme);
    JObject(map[
      OffsetKey := JNumber(p.imsakOffsetMinutes),
      MethodKey := JString(MethodName(p.calculationMethod)),
      ThemeKey := JString(ThemeName(p.theme)),
      NotificationsKey := JBool(p.notificationsEnabled)])
  }

  /**
   * `preferencesSchema.safeParse`: the record the schema reads out of a JSON
   * value, or `None` when the value does not match.
   */
  function Decode(j: Json): (r: Option<AppPreferences>)
    ensures r.Some? <==> MatchesSchema(j)
    ensures r.Some? ==> SchemaValid(r.value)
    ensures r.Some? ==>
      && j.fields[OffsetKey] == JNumber(r.value.imsakOffsetMinutes)
      && j.fields[MethodKey] == JString(MethodName(r.value.calculationMethod))
      && j.fields[ThemeKey] == JString(ThemeName(r.value.theme))
      && j.fields[NotificationsKey] == JBool(r.value.notificationsEnabled)
  {
    if !j.JObject? then None
    else if !(OffsetKey in j.fields && j.fields[OffsetKey].JNumber?) then None
    else if !(MinOffset <= j.fields[OffsetKey].n <= MaxOffset) then None
    else if !(MethodKey in j.fields && j.fields[MethodKey].JString?) then None
    else if !(ThemeKey in j.fields && j.fields[ThemeKey].JString?) then None
    else if !(NotificationsKey in j.fields && j.fields[NotificationsKey].JBool?) then None
    else
      match (ParseMethod(j.fields[MethodKey].s), ParseTheme(j.fields[ThemeKey].s))
      case (Some(m), Some(t)) =>
        Some(AppPreferences(j.fields[OffsetKey].n, m, t, j.fields[NotificationsKey].b))
      case _ => None
  }

  /** Encoding then decoding gives back a valid record and rejects an invalid one. */
  lemma DecodeEncode(p: AppPreferences)
    ensures SchemaValid(p) ==> Decode(Encode(p)) == Some(p)
    ensures !SchemaValid(p) ==> Decode(Encode(p)) == None
  {
    if SchemaValid(p) {
      var r := Decode(Encode(p));
      ParseMethodName(p.calculationMethod);
      ParseThemeName(p.theme);
      assert r.Some?;
      assert MethodName(r.value.calculationMethod) == MethodName(p.calculationMethod);
      assert ParseMethod(MethodName(r.value.calculationMethod)) == Some(r.value.calculationMethod) by {
        ParseMethodName(r.value.calculationMethod);
      }
      assert ParseTheme(ThemeName(r.value.theme)) == Some(r.value.theme) by {
        ParseThemeName(r.value.theme);
      }
    }
  }

  /** Keys outside the schema do not change what is decoded (they are stripped). */
  lemma DecodeIgnoresExtraKeys(fields: map<string, Json>, k: string, v: Json)
    requires k !in SchemaKeys
    ensures Decode(JObject(fields[k := v])) == Decode(JObject(fields))
  {
    var extended := fields[k := v];
    assert forall key :: key in SchemaKeys ==> (key in extended <==> key in fields);
    assert forall key :: key in SchemaKeys && key in fields ==> extended[key] == fields[key];
  }

  /* ------------------------------------------------------- load / save */

  /**
   * `loadPreferences`: the stored record when there is a window, its storage
   * answers, the key holds non-empty JSON text and that JSON matches the
   * schema; the defaults in every other case.
   */
  function Load(b: Browser): (r: AppPreferences)
    ensures SchemaValid(r)
    ensures !Usable(b) ==> r == DefaultPreferences()
    ensures Usable(b) && PreferencesKey !in b.storage ==> r == DefaultPreferences()
    ensures Usable(b) && PreferencesKey in b.storage && !b.storage[PreferencesKey].Text? ==>
      r == DefaultPreferences()
    ensures Usable(b) && PreferencesKey in b.storage && b.storage[PreferencesKey].Text? ==>
      var j := b.storage[PreferencesKey].json;
      && (!MatchesSchema(j) ==> r == DefaultPreferences())
      && (MatchesSchema(j) ==> Encode(r) == JObject(map k | k in SchemaKeys :: j.fields[k]))
  {
    if !Usable(b) then DefaultPreferences()
    else if PreferencesKey !in b.storage then DefaultPreferences()
    else
      match b.storage[PreferencesKey]
      case Blank => DefaultPreferences()
      case Malformed => DefaultPreferences()
      case Text(j) =>
        match Decode(j)
        case None => DefaultPreferences()
        case Some(p) => p
  }

  /**
   * `savePreferences`: the record written as JSON under the preferences key;
   * nothing happens without a window or when storage throws.
   */
  function Save(b: Browser, p: AppPreferences): (b': Browser)
    ensures !Usable(b) ==> b' == b
    ensures Usable(b) ==>
      && Usable(b')
      && b'.storage.Keys == b.storage.Keys + {PreferencesKey}
      && b'.storage[PreferencesKey] == Text(Encode(p))
      && (forall k :: k in b.storage && k != PreferencesKey ==> b'.storage[k] == b.storage[k])
  {
    match b
    case NoWindow => b
    case Window(storage, accessible) =>
      if accessible then Window(storage[PreferencesKey := Text(Encode(p))], accessible) else b
  }

  /** What is saved is what is loaded next, for any record the schema accepts. */
  lemma LoadAfterSave(b: Browser, p: AppPreferences)
    requires Usable(b)
    ensures SchemaValid(p) ==> Load(Save(b, p)) == p
    ensures !SchemaValid(p) ==> Load(Save(b, p)) == DefaultPreferences()
  {
    DecodeEncode(p);
  }

  /** Without usable storage nothing persists: the next load still gives the defaults. */
  lemma SaveWithoutStorage(b: Browser, p: AppPreferences)
    requires !Usable(b)
    ensures Load(Save(b, p)) == DefaultPreferences()
  {
  }

  /** Saving the same record twice leaves storage as saving it once. */
  lemma SaveIdempotent(b: Browser, p: AppPreferences)
    ensures Save(Save(b, p), p) == Save(b, p)
  {
    if Usable(b) {
      assert Save(b, p).storage[PreferencesKey := Text(Encode(p))] == Save(b, p).storage;
    }
  }

  /** The last save wins. */
  lemma SaveOverwrites(b: Browser, p: AppPreferences, q: AppPreferences)
    ensures Save(Save(b, p), q) == Save(b, q)
  {
    if Usable(b) {
      assert b.storage[PreferencesKey := Text(Encode(p))][PreferencesKey := Text(Encode(q))]
        == b.storage[PreferencesKey := Text(Encode(q))];
    }
  }

  /** Writes to other keys of the same storage do not affect what is loaded. */
  lemma LoadIgnoresOtherKeys(storage: map<string, Stored>, accessible: bool, k: string, v: Stored)
    requires k != PreferencesKey
    ensures Load(Window(storage[k := v], accessible)) == Load(Window(storage, accessible))
  {
    var extended := storage[k := v];
    assert PreferencesKey in extended <==> PreferencesKey in storage;
    if PreferencesKey in storage {
      assert extended[PreferencesKey] == storage[PreferencesKey];
    }
  }
}

=== FILE: text.dfy ===
/**
 * The string primitives the application code relies on: `String.prototype.split`
 * on a single character, `Number.prototype.toString` on non-negative integers,
 * `padStart(2, "0")`, and the integer reading `Number(...)` performs on a string
 * of decimal digits.
 */
module Text {
  import opened Options

  predicate IsDigit(c: char) {
    '0' <= c <= '9'
  }

  predicate AllDigits(s: string) {
    forall i :: 0 <= i < |s| ==> IsDigit(s[i])
  }

  function DigitChar(d: nat): (c: char)
    requires d < 10
    ensures IsDigit(c)
    ensures DigitValue(c) == d
  {
    ('0' as int + d) as char
  }

  function DigitValue(c: char): nat
    requires IsDigit(c)
  {
    c as int - '0' as int
  }

  /** Decimal rendering without leading zeros, as `n.toString()` gives it. */
  function NatToString(n: nat): (s: string)
    ensures |s| >= 1
    ensures AllDigits(s)
    decreases n
  {
    if n < 10 then [DigitChar(n)] else NatToString(n / 10) + [DigitChar(n % 10)]
  }

  /** The value of a string of decimal digits, leading zeros allowed. */
  function DigitsValue(s: string): nat
    requires AllDigits(s)
    decreases |s|
  {
    if |s| == 0 then 0 else DigitsValue(s[..|s| - 1]) * 10 + DigitValue(s[|s| - 1])
  }

  /**
   * Reading of a string as a whole number: defined exactly on non-empty strings
   * of decimal digits, `None` standing for `NaN`.
   */
  function ParseNat(s: string): Option<nat> {
    if |s| > 0 && AllDigits(s) then Some(DigitsValue(s)) else None
  }

  /** `n.toString().padStart(2, "0")`. */
  function Pad2(n: nat): string {
    if n < 10 then "0" + NatToString(n) else NatToString(n)
  }

  lemma {:induction false} ParseNatToString(n: nat)
    ensures ParseNat(NatToString(n)) == Some(n)
    decreases n
  {
    if n >= 10 {
      var s := NatToString(n);
      ParseNatToString(n / 10);
      assert s[..|s| - 1] == NatToString(n / 10);
      assert DigitsValue(s) == (n / 10) * 10 + n % 10;
    }
  }

  /**
   * Padding never changes the value read back, and leaves at least two digits,
   * exactly two below 100.
   */
  lemma ParsePad2(n: nat)
    ensures ParseNat(Pad2(n)) == Some(n)
    ensures |Pad2(n)| >= 2
    ensures n < 100 ==> |Pad2(n)| == 2
    ensures AllDigits(Pad2(n))
  {
    if n < 10 {
      var s := Pad2(n);
      assert s == ['0', DigitChar(n)];
      assert s[..1] == "0";
      assert DigitsValue(s[..1]) == DigitsValue("") * 10 + DigitValue('0') == 0;
      assert DigitsValue(s) == DigitsValue(s[..1]) * 10 + DigitValue(s[1]);
    } else {
      ParseNatToString(n);
      ParseNatToString(n / 10);
      if n < 100 {
        assert NatToString(n / 10) == [DigitChar(n / 10)];
      }
    }
  }

  /**
   * `s.split(sep)` for a one-character separator: the maximal separator-free
   * pieces, in order, including empty ones.
   */
  function Split(s: string, sep: char): (parts: seq<string>)
    ensures |parts| >= 1
    ensures forall i :: 0 <= i < |parts| ==> sep !in parts[i]
    decreases |s|
  {
    if |s| == 0 then [""]
    else if s[0] == sep then [""] + Split(s[1..], sep)
    else
      var rest := Split(s[1..], sep);
      [[s[0]] + rest[0]] + rest[1..]
  }

  /** `parts.join(sep)`, the inverse of `Split`. */
  function Join(parts: seq<string>, sep: char): string
    requires |parts| >= 1
    decreases |parts|
  {
    if |parts| == 1 then parts[0] else parts[0] + [sep] + Join(parts[1..], sep)
  }

  /** The text before the first `sep`: `s.split(sep)[0]`. */
  function Before(s: string, sep: char): string {
    Split(s, sep)[0]
  }

  /** Joining three pieces puts the separator between each neighbouring pair. */
  lemma JoinThree(a: string, b: string, c: string, sep: char)
    ensures Join([a, b, c], sep) == a + [sep] + b + [sep] + c
  {
    assert [a, b, c][1..] == [b, c];
    assert [b, c][1..] == [c];
    assert Join([b, c], sep) == b + [sep] + c;
    assert Join([a, b, c], sep) == a + [sep] + (b + [sep] + c);
  }

  /** Splitting loses nothing: joining the pieces gives the input back. */
  lemma {:induction false} JoinSplit(s: string, sep: char)
    ensures Join(Split(s, sep), sep) == s
    decreases |s|
  {
    if |s| > 0 {
      JoinSplit(s[1..], sep);
      var rest := Split(s[1..], sep);
      if s[0] == sep {
        assert Split(s, sep)[1..] == rest;
      } else {
        var parts := Split(s, sep);
        if |rest| > 1 {
          assert parts[1..] == rest[1..];
        }
      }
    }
  }

  /** A separator-free prefix glues onto the first piece of what follows it. */
  lemma {:induction false} SplitPrefix(a: string, rest: string, sep: char)
    requires sep !in a
    ensures Split(a + rest, sep) == [a + Split(rest, sep)[0]] + Split(rest, sep)[1..]
    decreases |a|
  {
    if |a| > 0 {
      SplitPrefix(a[1..], rest, sep);
      var tail := Split(rest, sep);
      assert (a + rest)[0] == a[0] && a[0] != sep;
      assert (a + rest)[1..] == a[1..] + rest;
      var inner := Split(a[1..] + rest, sep);
      assert inner[0] == a[1..] + tail[0];
      assert inner[1..] == tail[1..];
      assert Split(a + rest, sep) == [[a[0]] + inner[0]] + inner[1..];
      assert [a[0]] + (a[1..] + tail[0]) == a + tail[0];
    } else {
      var tail := Split(rest, sep);
      assert a + rest == rest;
      assert a + tail[0] == tail[0];
      assert tail == [tail[0]] + tail[1..];
    }
  }

  /** Joining separator-free pieces and splitting again gives the pieces back. */
  lemma {:induction false} SplitJoin(parts: seq<string>, sep: char)
    requires |parts| >= 1
    requires forall i :: 0 <= i < |parts| ==> sep !in parts[i]
    ensures Split(Join(parts, sep), sep) == parts
    decreases |parts|
  {
    if |parts| == 1 {
      SplitPrefix(parts[0], "", sep);
      assert parts[0] + "" == parts[0];
      assert Split("", sep) == [""];
    } else {
      var tail := Join(parts[1..], sep);
      SplitJoin(parts[1..], sep);
      SplitPrefix(parts[0], [sep] + tail, sep);
      assert Join(parts, sep) == parts[0] + ([sep] + tail);
      assert ([sep] + tail)[0] == sep;
      assert ([sep] + tail)[1..] == tail;
      var after := Split([sep] + tail, sep);
      assert after == [""] + parts[1..];
      assert after[0] == "" && after[1..] == parts[1..];
      assert parts[0] + "" == parts[0];
      assert parts == [parts[0]] + parts[1..];
    }
  }

  /** Text without the separator is a single piece: everything comes before it. */
  lemma BeforeWhole(s: string, sep: char)
    requires sep !in s
    ensures Split(s, sep) == [s]
    ensures Before(s, sep) == s
  {
    SplitPrefix(s, "", sep);
    assert s + "" == s;
  }

  /** A leading separator starts with an empty piece. */
  lemma SplitLeadingSeparator(rest: string, sep: char)
    ensures Split([sep] + rest, sep) == [""] + Split(rest, sep)
  {
    assert ([sep] + rest)[1..] == rest;
  }

  /** A separator-free piece followed by a separator is the first piece of the split. */
  lemma SplitPieceThenTail(a: string, rest: string, sep: char)
    requires sep !in a
    ensures var parts := Split(a + [sep] + rest, sep);
      |parts| >= 2 && parts[0] == a && parts[1..] == Split(rest, sep)
  {
    SplitLeadingSeparator(rest, sep);
    SplitPrefix(a, [sep] + rest, sep);
    assert a + [sep] + rest == a + ([sep] + rest);
  }

  /**
   * Two separator-free pieces followed by a separator and any tail are the
   * first two pieces of the split, whatever the tail holds.
   */
  lemma SplitTwoThenTail(a: string, b: string, rest: string, sep: char)
    requires sep !in a && sep !in b
    ensures var parts := Split(a + [sep] + b + [sep] + rest, sep);
      |parts| >= 3 && parts[0] == a && parts[1] == b
  {
    var y := b + [sep] + rest;
    assert a + [sep] + b + [sep] + rest == a + [sep] + y;
    SplitPieceThenTail(b, rest, sep);
    SplitPieceThenTail(a, y, sep);
  }

  /** A digit string contains no separator character used in this model. */
  lemma DigitsHaveNoSeparator(s: string, sep: char)
    requires AllDigits(s)
    requires !IsDigit(sep)
    ensures sep !in s
  {
  }
}

=== FILE: time.dfy ===
/**
 * The date helpers of `lib/time.ts`. A `Date` is modelled as an integer count
 * of milliseconds of local wall-clock time, so that its local calendar day,
 * hour, minute, second and millisecond are plain integer quotients and
 * remainders.
 */
module Time {
  import opened Options
  import opened Text
  import opened Clock

  const MsPerSecond: int := 1000
  const MsPerMinute: int := 60_000
  const MsPerHour: int := 3_600_000
  const MsPerDay: int := 86_400_000

  /** The local calendar day an instant falls on. */
  function DayNumber(t: int): int {
    t / MsPerDay
  }

  /** The instant at which the local day of `t` begins. */
  function Midnight(t: int): int {
    DayNumber(t) * MsPerDay
  }

  /** `getHours()`. */
  function HourOf(t: int): (h: nat)
    ensures h < 24
  {
    (t % MsPerDay) / MsPerHour
  }

  /** `getMinutes()`. */
  function MinuteOf(t: int): (m: nat)
    ensures m < 60
  {
    (t % MsPerHour) / MsPerMinute
  }

  /** `getSeconds()`. */
  function SecondOf(t: int): (s: nat)
    ensures s < 60
  {
    (t % MsPerMinute) / MsPerSecond
  }

  /** `getMilliseconds()`. */
  function MillisecondOf(t: int): (ms: nat)
    ensures ms < 1000
  {
    t % MsPerSecond
  }

  /** Quotient and remainder are determined by any decomposition `a == q * n + r` with `0 <= r < n`. */
  lemma DivModUnique(a: int, n: int, q: int, r: int)
    requires n > 0 && 0 <= r < n && a == q * n + r
    ensures a / n == q && a % n == r
  {
    var q', r' := a / n, a % n;
    assert (q' - q) * n == r - r';
    if q' > q {
      MulAtLeast(q' - q, n);
    } else if q' < q {
      MulAtLeast(q - q', n);
    }
  }

  lemma MulAtLeast(k: int, n: int)
    requires k >= 1 && n > 0
    ensures k * n >= n
  {
    assert k * n == (k - 1) * n + n;
    assert (k - 1) * n >= 0;
  }

  /** An instant is its day, hour, minute, second and millisecond put back together. */
  lemma Decompose(t: int)
    ensures t == Midnight(t) + HourOf(t) * MsPerHour + MinuteOf(t) * MsPerMinute
                 + SecondOf(t) * MsPerSecond + MillisecondOf(t)
  {
    var d, r := t / MsPerDay, t % MsPerDay;
    var h, rh := r / MsPerHour, r % MsPerHour;
    var m, rm := rh / MsPerMinute, rh % MsPerMinute;
    var s, rs := rm / MsPerSecond, rm % MsPerSecond;
    DivModUnique(t, MsPerHour, d * 24 + h, rh);
    DivModUnique(t, MsPerMinute, d * 1440 + h * 60 + m, rm);
    DivModUnique(t, MsPerSecond, d * 86400 + h * 3600 + m * 60 + s, rs);
  }

  /** The instant `x` milliseconds into local day `d`, for `x` within one day. */
  lemma WithinDay(d: int, x: int)
    ensures 0 <= x < MsPerDay ==>
      && DayNumber(d * MsPerDay + x) == d
      && Midnight(d * MsPerDay + x) == d * MsPerDay
      && (d * MsPerDay + x) % MsPerDay == x
  {
    if 0 <= x < MsPerDay {
      DivModUnique(d * MsPerDay + x, MsPerDay, d, x);
    }
  }

  /** The clock fields of the instant `h:m` on local day `d`. */
  lemma ClockOnDay(d: int, h: nat, m: nat)
    ensures h < 24 && m < 60 ==>
      var t := d * MsPerDay + h * MsPerHour + m * MsPerMinute;
      && DayNumber(t) == d
      && HourOf(t) == h
      && MinuteOf(t) == m
      && SecondOf(t) == 0
      && MillisecondOf(t) == 0
  {
    if h < 24 && m < 60 {
      var x := h * MsPerHour + m * MsPerMinute;
      var t := d * MsPerDay + x;
      WithinDay(d, x);
      DivModUnique(x, MsPerHour, h, m * MsPerMinute);
      DivModUnique(t, MsPerHour, d * 24 + h, m * MsPerMinute);
      DivModUnique(m * MsPerMinute, MsPerMinute, m, 0);
      DivModUnique(t, MsPerMinute, d * 1440 + h * 60 + m, 0);
      DivModUnique(t, MsPerSecond, d * 86400 + h * 3600 + m * 60, 0);
    }
  }

  /** Whole seconds as hours, minutes below 60 and seconds below 60. */
  lemma SplitSeconds(total: nat)
    ensures (total % 3600) / 60 < 60 && total % 60 < 60
    ensures (total / 3600) * 3600 + ((total % 3600) / 60) * 60 + total % 60 == total
  {
    var h, r := total / 3600, total % 3600;
    var m, s := r / 60, r % 60;
    assert total == (h * 60 + m) * 60 + s;
    DivModUnique(total, 60, h * 60 + m, s);
  }

  /** Moving by whole minutes keeps the remainder modulo a minute. */
  lemma MinuteShift(t: int, k: int)
    ensures (t - k * MsPerMinute) % MsPerMinute == t % MsPerMinute
  {
    var q, r := t / MsPerMinute, t % MsPerMinute;
    assert t - k * MsPerMinute == (q - k) * MsPerMinute + r;
    DivModUnique(t - k * MsPerMinute, MsPerMinute, q - k, r);
  }

  /**
   * `makeDateFromTimeString`: the base instant with its clock set to the hours
   * and minutes of `time24` and seconds and milliseconds cleared; the base
   * instant itself when the string does not parse. Hours or minutes beyond
   * their range carry into the following day, as `setHours` does.
   */
  function MakeDateFromTimeString(base: int, time24: string): (r: int)
    ensures ParseClock(time24).None? ==> r == base
  {
    match ParseClock(time24)
    case None => base
    case Some((h, m)) => Midnight(base) + h * MsPerHour + m * MsPerMinute
  }

  /**
   * A time string with an in-range clock reading gives an instant on the
   * base's local day showing exactly that hour and minute, on the whole minute.
   */
  lemma MakeDateFields(base: int, time24: string, h: nat, m: nat)
    requires ParseClock(time24) == Some((h, m)) && h < 24 && m < 60
    ensures var r := MakeDateFromTimeString(base, time24);
      && DayNumber(r) == DayNumber(base)
      && HourOf(r) == h
      && MinuteOf(r) == m
      && SecondOf(r) == 0
      && MillisecondOf(r) == 0
  {
    ClockOnDay(DayNumber(base), h, m);
  }

  /** A time string that parses places its clock reading after the base instant's midnight. */
  lemma PlacedClock(base: int, s: string, h: nat, m: nat)
    requires ParseClock(s) == Some((h, m))
    ensures MakeDateFromTimeString(base, s) == Midnight(base) + h * MsPerHour + m * MsPerMinute
  {
  }

  /** A count of minutes is its hours and remaining minutes, in milliseconds. */
  lemma MinutesOfDay(t: int)
    ensures (t / 60) * 3600000 + (t % 60) * 60000 == t * 60000
  {
    assert t == (t / 60) * 60 + t % 60;
  }

  /** A time string that reads as minute `t` of the day is placed `t` minutes after midnight. */
  lemma PlacedMinutes(base: int, s: string, t: int)
    requires 0 <= t < 1440
    requires ParseClock(s) == Some((t / 60, t % 60))
    ensures MakeDateFromTimeString(base, s) == Midnight(base) + t * 60000
  {
    PlacedClock(base, s, t / 60, t % 60);
    MinutesOfDay(t);
  }

  /**
   * Out-of-range readings carry as `setHours` does: counted in minutes, the
   * reading `x` lands `x / 1440` days after the base's day, at the hour and
   * minute of what remains, on the whole minute.
   */
  lemma MakeDateCarry(base: int, s: string, h: nat, m: nat)
    requires ParseClock(s) == Some((h, m))
    ensures var r := MakeDateFromTimeString(base, s);
      var x := h * 60 + m;
      && DayNumber(r) == DayNumber(base) + x / 1440
      && HourOf(r) == (x % 1440) / 60
      && MinuteOf(r) == x % 60
      && SecondOf(r) == 0
      && MillisecondOf(r) == 0
  {
    var x := h * 60 + m;
    var q, rem := x / 1440, x % 1440;
    var d := DayNumber(base);
    var r := MakeDateFromTimeString(base, s);
    PlacedClock(base, s, h, m);
    assert r == d * 86400000 + x * 60000;
    assert x * 60000 == q * 86400000 + rem * 60000;
    MinutesOfDay(rem);
    assert r == (d + q) * 86400000 + (rem / 60) * 3600000 + (rem % 60) * 60000;
    ClockOnDay(d + q, rem / 60, rem % 60);
    DivModUnique(x, 60, q * 24 + rem / 60, rem % 60);
  }

  /** `subtractMinutes`: the instant `minutes` whole minutes earlier. */
  function SubtractMinutes(t: int, minutes: int): (r: int)
    ensures r + minutes * MsPerMinute == t
    ensures minutes > 0 ==> r < t
  {
    t - minutes * MsPerMinute
  }

  /** Only the minute count moves: seconds and milliseconds are untouched. */
  lemma SubtractMinutesKeepsSeconds(t: int, minutes: int)
    ensures SecondOf(SubtractMinutes(t, minutes)) == SecondOf(t)
    ensures MillisecondOf(SubtractMinutes(t, minutes)) == MillisecondOf(t)
  {
    MinuteShift(t, minutes);
  }

  /** Subtracting nothing is the identity and two subtractions add up. */
  lemma SubtractMinutesCompose(t: int, a: int, b: int)
    ensures SubtractMinutes(t, 0) == t
    ensures SubtractMinutes(SubtractMinutes(t, a), b) == SubtractMinutes(t, a + b)
  {
  }

  /** The result of `getCountdownParts`; the three fields are display strings. */
  datatype Countdown = Countdown(totalMs: int, hours: string, minutes: string, seconds: string)

  /**
   * `getCountdownParts`: the time left until `target`, never negative, split
   * into whole hours (not capped at 24), minutes and seconds, each padded to
   * at least two digits. A missing target reads as nothing left.
   */
  function CountdownParts(target: Option<int>, now: int): (r: Countdown)
    ensures target.None? ==> r == Countdown(0, "00", "00", "00")
    ensures r.totalMs >= 0
    ensures target.Some? ==> r.totalMs == if target.value > now then target.value - now else 0
    ensures |r.hours| >= 2 && |r.minutes| == 2 && |r.seconds| == 2
    ensures ParseNat(r.hours).Some? && ParseNat(r.minutes).Some? && ParseNat(r.seconds).Some?
    ensures ParseNat(r.minutes).value < 60 && ParseNat(r.seconds).value < 60
    ensures ParseNat(r.hours).value * 3600 + ParseNat(r.minutes).value * 60 + ParseNat(r.seconds).value
            == r.totalMs / 1000
  {
    match target
    case None =>
      ParsePad2(0);
      assert Pad2(0) == "00";
      Countdown(0, "00", "00", "00")
    case Some(t) =>
      var clamped := if t - now > 0 then t - now else 0;
      var totalSeconds := clamped / 1000;
      var h := totalSeconds / 3600;
      var m := (totalSeconds % 3600) / 60;
      var s := totalSeconds % 60;
      SplitSeconds(totalSeconds);
      ParsePad2(h);
      ParsePad2(m);
      ParsePad2(s);
      Countdown(clamped, Pad2(h), Pad2(m), Pad2(s))
  }

  /** The background phase of the day. */
  datatype Phase = Night | PreFajr | Day | Sunset

  /** `getTimePhase`, on the local hour of the instant. */
  function TimePhase(t: int): (p: Phase)
    ensures p == Night <==> HourOf(t) >= 20 || HourOf(t) < 4
    ensures p == PreFajr <==> 4 <= HourOf(t) < 6
    ensures p == Day <==> 6 <= HourOf(t) < 17
    ensures p == Sunset <==> 17 <= HourOf(t) < 20
  {
    PhaseOfHour(HourOf(t))
  }

  function PhaseOfHour(hour: nat): Phase {
    if hour >= 20 || hour < 4 then Night
    else if hour >= 4 && hour < 6 then PreFajr
    else if hour >= 17 && hour < 20 then Sunset
    else Day
  }

  /**
   * Walking through the hours of a day, the phase changes exactly at 04:00,
   * 06:00, 17:00 and 20:00, and always to the next phase of the cycle
   * night, pre-fajr, day, sunset.
   */
  lemma PhaseChanges(hour: nat)
    requires hour < 24
    ensures var next := (hour + 1) % 24;
      PhaseOfHour(next) != PhaseOfHour(hour) <==> next == 4 || next == 6 || next == 17 || next == 20
    ensures var next := (hour + 1) % 24;
      PhaseOfHour(next) != PhaseOfHour(hour) ==> PhaseOfHour(next) == NextPhase(PhaseOfHour(hour))
  {
  }

  function NextPhase(p: Phase): Phase {
    match p
    case Night => PreFajr
    case PreFajr => Day
    case Day => Sunset
    case Sunset => Night
  }

  /** `phaseToBackgroundClass`: a class name from which the phase can be read back. */
  function BackgroundClass(p: Phase): (c: string)
    ensures PhaseOfClass(c) == Some(p)
  {
    match p
    case PreFajr => "bg-gradient-dawn"
    case Day => "bg-gradient-day"
    case Sunset => "bg-gradient-sunset"
    case Night => "bg-gradient-night"
  }

  /** Reading a class name back to the phase that produces it. */
  function PhaseOfClass(c: string): Option<Phase> {
    if c == "bg-gradient-dawn" then Some(PreFajr)
    else if c == "bg-gradient-day" then Some(Day)
    else if c == "bg-gradient-sunset" then Some(Sunset)
    else if c == "bg-gradient-night" then Some(Night)
    else None
  }

  /** Each phase gets its own class: the class determines the phase. */
  lemma BackgroundClassDistinct(p: Phase, q: Phase)
    ensures PhaseOfClass(BackgroundClass(p)) == Some(p)
    ensures BackgroundClass(p) == BackgroundClass(q) ==> p == q
  {
  }
}

=== FILE: types.dfy ===
/** The shared vocabulary of the application (`lib/types.ts`). */
module Types {
  import opened Options

  /** The seven named prayer-time calculation conventions. */
  datatype Method = MWL | ISNA | Egyptian | Makkah | Karachi | Tehran | Jafari

  function MethodName(m: Method): string {
    match m
    case MWL => "MWL"
    case ISNA => "ISNA"
    case Egyptian => "Egyptian"
    case Makkah => "Makkah"
    case Karachi => "Karachi"
    case Tehran => "Tehran"
    case Jafari => "Jafari"
  }

  /** The accepted spellings of a method, as the enum schemas list them. */
  const MethodNames: set<string> := {"MWL", "ISNA", "Egyptian", "Makkah", "Karachi", "Tehran", "Jafari"}

  /** The enum check on a method name: `None` for anything outside the seven names. */
  function ParseMethod(s: string): (r: Option<Method>)
    ensures r.Some? <==> s in MethodNames
    ensures r.Some? ==> MethodName(r.value) == s
  {
    if s == "MWL" then Some(MWL)
    else if s == "ISNA" then Some(ISNA)
    else if s == "Egyptian" then Some(Egyptian)
    else if s == "Makkah" then Some(Makkah)
    else if s == "Karachi" then Some(Karachi)
    else if s == "Tehran" then Some(Tehran)
    else if s == "Jafari" then Some(Jafari)
    else None
  }

  /** Every method's name is accepted and read back as that method. */
  lemma ParseMethodName(m: Method)
    ensures MethodName(m) in MethodNames
    ensures ParseMethod(MethodName(m)) == Some(m)
  {
  }

  datatype Theme = Dark | Light | System

  function ThemeName(t: Theme): string {
    match t
    case Dark => "dark"
    case Light => "light"
    case System => "system"
  }

  const ThemeNames: set<string> := {"dark", "light", "system"}

  function ParseTheme(s: string): (r: Option<Theme>)
    ensures r.Some? <==> s in ThemeNames
    ensures r.Some? ==> ThemeName(r.value) == s
  {
    if s == "dark" then Some(Dark)
    else if s == "light" then Some(Light)
    else if s == "system" then Some(System)
    else None
  }

  lemma ParseThemeName(t: Theme)
    ensures ThemeName(t) in ThemeNames
    ensures ParseTheme(ThemeName(t)) == Some(t)
  {
  }

  /**
   * The inclusive bounds on the Imsak offset in minutes, shared by the query
   * schema of the calendar route and the stored-preferences schema.
   */
  const MinOffset: int := 5
  const MaxOffset: int := 30

  datatype AppPreferences = AppPreferences(
    imsakOffsetMinutes: int,
    calculationMethod: Method,
    theme: Theme,
    notificationsEnabled: bool)

  /** One day of the canonical schedule; every time is an unparsed `HH:MM` string. */
  datatype PrayerDay = PrayerDay(
    date: string,
    hijriDate: string,
    imsak: string,
    fajr: string,
    maghrib: string,
    readableDateLabel: string)

  /**
   * Instants are milliseconds of local wall-clock time; `None` stands for a
   * `null` Date.
   */
  datatype TodayTimes = TodayTimes(imsak: Option<int>, fajr: Option<int>, maghrib: Option<int>)

  datatype EventKind = Imsak | Fajr | Maghrib

  /** `caption` is the source's `label` field (`label` is a Dafny keyword). */
  datatype NextEvent = NextEvent(kind: EventKind, caption: string, target: Option<int>)
}
